=== FILE: README.md ===
# Lock-free collections of Playground, as run by one thread

This project models the three lock-free collections of the `Collections.Concurrent`
namespace and the atomic marked reference they share, and proves what each
operation does when a single thread calls it:

- `atomics.dfy` (module `Atomics`): the atomic markable reference. It is a cell holding a
  (reference, mark) pair that is read, replaced and compared-and-set as one unit.
- `stack.dfy` (module `TreiberStack`): Treiber's stack. It is an immutable linked
  list whose `head` is swung by compare-exchange.
- `queue.dfy` (module `MsQueue`): the Michael-Scott queue. It is a linked list from a
  consumed sentinel `head` to `tail`, with node links and both end pointers swung by
  compare-and-set.
- `marked_chain.dfy` (module `MarkedChain`): the value-level view of the sorted set's
  chain. It is the keys of the linked interior nodes and the mark each node's own link
  carries. It holds lemmas for the three ways the chain changes: unlinking a Dead node,
  linking an Alive node, and marking a node Dead.
- `harris_set.dfy` (module `HarrisSet`): Harris's sorted set over `int` keys.
  - `Add` links a new node with a compare-and-set.
  - `Delete` only flips the node's own mark from Alive to Dead.
  - `Search` unlinks the Dead nodes it meets. It restarts from `head` when an unlink
    fails.

Each class keeps ghost state and proves it against its fields:

- Stack: the nodes from `head`, with `Contents()` top first.
- Queue: the nodes from `head` to `tail`, with `Contents()` front to back.
- Sorted set: the linked nodes `chain`, with their `keys` and `marks`, and
  `Elements()`, the Alive keys in chain order.

`Valid()` ties the ghost state to the links in the heap. Every operation keeps it. The
counter equals the number of elements.

The sorted set's retry loops are real even with one thread:

- An unlink whose predecessor is a node the same pass unlinked fails, and the search
  restarts.
- An `Add` whose `left` is such a node reads the Dead mark on `left`'s link and retries
  without attempting the compare-and-set. An `Add` whose `right` is such a node
  attempts the compare-and-set, which fails, and retries.
- A `Delete` that finds a Dead node retries.

Every such retry strictly lowers the number of linked Dead nodes. The loops are proved
to terminate on that measure.

The model follows the code. Harris's published search only returns a `right` node
that is not marked. This search, after unlinking a Dead node, stays on that node and can
return it as `found`. So `Add(x)` fails iff x was the key of any linked node, Alive
or Dead, before the call. It is not "iff x is absent": `DeleteThenAddAgain` shows an add
straight after a delete failing, and the next add succeeding.

The linked keys left after each operation are stated exactly:

- A search for x unlinks every Dead key below x, and the least key not below x when
  that key is Dead. It leaves every other key linked.
- `Delete` searches again only when it found x on a Dead node. That search also
  unlinks the least key above x when Dead.
- An `Add` of an absent x retries until the key after x is Alive. It unlinks the whole
  run of Dead keys from x up to the first Alive key.

## Model

| member | source | states |
|---|---|---|
| Atomics.AtomicMarkableReference.constructor | Playground/Collections/Concurrent/Utils/AtomicMarkableReference.cs:9-12 | the cell holds exactly the given (reference, mark) pair |
| Atomics.AtomicMarkableReference.Get | Playground/Collections/Concurrent/Utils/AtomicMarkableReference.cs:16-20 | returns the stored reference and mark together, changing nothing |
| Atomics.AtomicMarkableReference.Set | Playground/Collections/Concurrent/Utils/AtomicMarkableReference.cs:21-25 | replaces reference and mark together, unconditionally |
| Atomics.AtomicMarkableReference.CompareAndSet | Playground/Collections/Concurrent/Utils/AtomicMarkableReference.cs:28-35 | succeeds iff the stored reference is the expected one by identity and the stored mark equals the expected mark; on success the desired pair is stored, otherwise nothing changes |
| TreiberStack.Node.constructor | Playground/Collections/Concurrent/Stack.cs:80-84 | a node holds the given element and fixed successor |
| TreiberStack.Stack.constructor | Playground/Collections/Concurrent/Stack.cs:13-16 | a new stack is valid, has no head, a zero counter and no contents |
| TreiberStack.Stack.Count | Playground/Collections/Concurrent/Stack.cs:65 | the counter equals the number of elements |
| TreiberStack.Stack.CompareExchangeHead | Playground/Collections/Concurrent/Stack.cs:24 | installs the new head iff the current head is the expected node, and reports whether it did |
| TreiberStack.Stack.Push | Playground/Collections/Concurrent/Stack.cs:18-30 | the new head is a newly allocated node holding the element above the old head; contents become the element followed by the old contents; the counter goes up by one |
| TreiberStack.Stack.TryPop | Playground/Collections/Concurrent/Stack.cs:32-51 | fails iff the stack is empty, then changes nothing; otherwise returns the top element, the head moves to its successor, the contents lose their first element and the counter goes down by one |
| TreiberStack.Stack.TryPeek | Playground/Collections/Concurrent/Stack.cs:53-63 | fails iff the stack is empty; otherwise returns the top element |
| TreiberStack.Stack.Enumerate | Playground/Collections/Concurrent/Stack.cs:67-71 | yields exactly the contents, top to bottom |
| TreiberStack.PushThenPop | Playground/Collections/Concurrent/Stack.cs:18-51 | a push followed by a pop returns the pushed element and restores head, contents and counter (last in, first out) |
| TreiberStack.PushAllThenDrain | Playground/Collections.Tests/Concurrent/StackTests.cs:14-32 | pushing 0..n-1 with a peek after each push: every peek sees the element just pushed, the counter reads n, popping until failure yields n-1..0 and the counter ends at 0 |
| MsQueue.Node.constructor | Playground/Collections/Concurrent/Queue.cs:129-133 | a node holds the given element and successor |
| MsQueue.Node.CompareAndSetNext | Playground/Collections/Concurrent/Queue.cs:139-143 | writes the new successor iff the current one is the expected node, and reports whether it did |
| MsQueue.Queue.constructor | Playground/Collections/Concurrent/Queue.cs:14-19 | head and tail are one sentinel with no successor; the counter is zero and the contents are empty |
| MsQueue.Queue.Count | Playground/Collections/Concurrent/Queue.cs:21 | the counter equals the number of elements |
| MsQueue.Queue.CompareAndSetTail | Playground/Collections/Concurrent/Queue.cs:115-118 | installs the new tail iff the current tail is the expected node |
| MsQueue.Queue.CompareAndSetHead | Playground/Collections/Concurrent/Queue.cs:120-123 | installs the new head iff the current head is the expected node |
| MsQueue.Queue.Enqueue | Playground/Collections/Concurrent/Queue.cs:34-55 | a newly allocated node is linked after the old tail and becomes the tail; contents gain the element at the back; the counter goes up by one; head is unchanged; the helping branch for a lagging tail is unreachable |
| MsQueue.Queue.TryHead | Playground/Collections/Concurrent/Queue.cs:57-69 | fails iff the queue is empty; otherwise returns the front element |
| MsQueue.Queue.TryTail | Playground/Collections/Concurrent/Queue.cs:71-83 | fails iff head and tail are the same node, which is iff the queue is empty; otherwise returns the back element |
| MsQueue.Queue.TryDequeue | Playground/Collections/Concurrent/Queue.cs:85-113 | fails iff the queue is empty, then changes nothing; otherwise returns the front element, head moves onto its node, the contents lose their first element and the counter goes down by one; tail is unchanged; the helping branch is unreachable |
| MsQueue.Queue.Enumerate | Playground/Collections/Concurrent/Queue.cs:23-27 | yields exactly the contents, front to back |
| MsQueue.EnqueueAllThenDrain | Playground/Collections.Tests/Concurrent/QueueTests.cs:14-32 | enqueuing 0..n-1 with a tail read after each: every read sees the element just enqueued, the counter reads n, dequeuing until failure yields 0..n-1 (first in, first out) and the counter ends at 0 |
| MarkedChain.AliveKeysAppend | Playground/Collections/Concurrent/HarrisSortedSet.cs:27-38 | the Alive keys of two runs joined are the Alive keys of each, joined in order |
| MarkedChain.AliveKeysLength | Playground/Collections/Concurrent/HarrisSortedSet.cs:27-38 | the number of elements plus the number of Dead nodes is the number of linked keys |
| MarkedChain.AliveKeysMember | Playground/Collections/Concurrent/HarrisSortedSet.cs:27-38 | x is an element iff some linked node with key x is marked Alive |
| MarkedChain.AliveKeysAscending | Playground/Collections/Concurrent/HarrisSortedSet.cs:27-38 | the elements of strictly ascending keys are strictly ascending, so enumeration is in sorted order |
| MarkedChain.Unlink | Playground/Collections/Concurrent/HarrisSortedSet.cs:102 | unlinking a Dead node leaves the elements exactly as they were |
| MarkedChain.RemoveAscending | Playground/Collections/Concurrent/HarrisSortedSet.cs:102 | removing a key from a strictly ascending run keeps it strictly ascending |
| MarkedChain.DeadCountRemove | Playground/Collections/Concurrent/HarrisSortedSet.cs:102 | unlinking a Dead node lowers the number of Dead nodes by one (the retry measure) |
| MarkedChain.Gap | Playground/Collections/Concurrent/HarrisSortedSet.cs:105-115 | a key that falls strictly between two neighbours in an ascending run is not in the run |
| MarkedChain.AliveKeyAt | Playground/Collections/Concurrent/HarrisSortedSet.cs:47-52 | with distinct keys, the key of a linked node is an element iff that node is marked Alive |
| MarkedChain.StopOnRemoved | Playground/Collections/Concurrent/HarrisSortedSet.cs:101-115 | a search that stops on the Dead node it just unlinked: x was a key iff that node held it, x was not an element, and x is no longer a key |
| MarkedChain.AscendingUnique | Playground/Collections/Concurrent/HarrisSortedSet.cs:27-38 | two strictly ascending runs with the same members are equal, so the enumeration is fixed by the set of elements |
| MarkedChain.InsertAscending | Playground/Collections/Concurrent/HarrisSortedSet.cs:66 | a key placed between a smaller and a larger neighbour keeps the keys strictly ascending |
| MarkedChain.LinkAlive | Playground/Collections/Concurrent/HarrisSortedSet.cs:63-69 | linking an Alive node at its insertion point keeps the keys ascending; the key was absent; the elements gain exactly that key and one more in number; the number of Dead nodes is unchanged |
| MarkedChain.Kill | Playground/Collections/Concurrent/HarrisSortedSet.cs:84-87 | marking an Alive node Dead removes exactly its key from the elements, lowers their number by one and adds one Dead node |
| MarkedChain.AliveKeysNoDead | Playground/Collections/Concurrent/HarrisSortedSet.cs:27-38 | with no Dead node linked, the elements are all the linked keys |
| MarkedChain.RemoveWithin | Playground/Collections/Concurrent/HarrisSortedSet.cs:102 | removing one linked key keeps the keys within those at the call; the keys dropped are then those dropped before, below x, and the removed key |
| MarkedChain.RemoveGone | Playground/Collections/Concurrent/HarrisSortedSet.cs:102 | in strictly ascending keys, a removed key is no longer linked and is below the key that takes its position |
| MarkedChain.SearchedFrom | Playground/Collections/Concurrent/HarrisSortedSet.cs:96-116 | a pass that unlinked only Dead keys below x and at most the stop key, and saw Alive keys before its stop position, left exactly the keys at the call less the Dead keys below x and less the least key not below x when Dead; the stop key is that least key |
| MarkedChain.SearchPastDead | Playground/Collections/Concurrent/HarrisSortedSet.cs:76-82 | a second search for x after the first unlinked the Dead key x leaves exactly the keys at the call less what a search for x unlinks and less what a search for x + 1 unlinks |
| MarkedChain.AddRoundStep | Playground/Collections/Concurrent/HarrisSortedSet.cs:58-71 | one more round of Add keeps every key dropped so far among those Add may unlink; when the round decides the add, the linked keys are exactly those at the call less the Dead keys below x, less x if it was a Dead key, or less the run of Dead keys from x when x was absent; plus x when added |
| HarrisSet.Node.constructor | Playground/Collections/Concurrent/HarrisSortedSet.cs:128-132 | a node holds the given key and link cell |
| HarrisSet.DistinctLinksRemove | Playground/Collections/Concurrent/HarrisSortedSet.cs:102 | unlinking a node keeps every remaining node's link cell distinct from the others and from the unlinked node's cell |
| HarrisSet.DistinctLinksInsert | Playground/Collections/Concurrent/HarrisSortedSet.cs:66 | linking a node with a new link cell keeps the link cells distinct |
| HarrisSet.HarrisSortedSet.constructor | Playground/Collections/Concurrent/HarrisSortedSet.cs:17-23 | head links to tail, both Alive, tail links to null; no keys, no elements, zero counter |
| HarrisSet.HarrisSortedSet.Count | Playground/Collections/Concurrent/HarrisSortedSet.cs:45 | the counter equals the number of elements |
| HarrisSet.HarrisSortedSet.LinksUnlink | Playground/Collections/Concurrent/HarrisSortedSet.cs:102 | after the unlink compare-and-set, the links in the heap match the chain without the Dead node |
| HarrisSet.HarrisSortedSet.UnlinkKeepsValid | Playground/Collections/Concurrent/HarrisSortedSet.cs:102 | the unlinked state is valid, has the same elements and one Dead node fewer, no linked node shares the unlinked node's cell, and the marks before the unlinked position are unchanged |
| HarrisSet.HarrisSortedSet.SwingPast | Playground/Collections/Concurrent/HarrisSortedSet.cs:101-103 | the unlink succeeds iff the predecessor is still linked and Alive; on success the Dead node leaves the chain and the pass stands on it; on failure nothing changes, the predecessor's link included, and this pass has already unlinked a node |
| HarrisSet.HarrisSortedSet.JudgeAlive | Playground/Collections/Concurrent/HarrisSortedSet.cs:101-102 | reading an Alive current node leaves the pass's invariant in place for the comparison |
| HarrisSet.HarrisSortedSet.Advance | Playground/Collections/Concurrent/HarrisSortedSet.cs:108-113 | stepping to the successor of a node whose key is below x keeps the pass's invariant, the elements and whether x is a key; every key still linked was linked at the start of the search, and every key unlinked since then is below x |
| HarrisSet.HarrisSortedSet.AdvanceLinked | Playground/Collections/Concurrent/HarrisSortedSet.cs:108-113 | stepping past a still-linked node moves to the next position in the chain |
| HarrisSet.HarrisSortedSet.AdvanceUnlinked | Playground/Collections/Concurrent/HarrisSortedSet.cs:108-113 | stepping past the node just unlinked keeps the position, from a detached predecessor |
| HarrisSet.HarrisSortedSet.LocatedFirst | Playground/Collections/Concurrent/HarrisSortedSet.cs:96-116 | a located right is the first node whose key is not below x: every key linked before its position is below x, x is not above its key, and when it is tail every linked key is below x; every linked key below x is an element, because the search unlinked the Dead nodes below x |
| HarrisSet.HarrisSortedSet.StopAtTail | Playground/Collections/Concurrent/HarrisSortedSet.cs:105 | a pass that reaches tail reports not found, x is not a key, every key still linked was linked at the start of the search, and every key unlinked since then is below x |
| HarrisSet.HarrisSortedSet.StopAt | Playground/Collections/Concurrent/HarrisSortedSet.cs:107-115 | a pass that reaches a key not below x reports found iff that key is x, and located iff that holds; every key still linked was linked at the start of the search, and every key unlinked since then is below x or is the stop node's key; that key was linked at the start, and if the stop node is Dead it is no longer linked |
| HarrisSet.HarrisSortedSet.StopAtLinked | Playground/Collections/Concurrent/HarrisSortedSet.cs:107-115 | stopping on a linked node: x is an element iff it is that node's key and the node is Alive |
| HarrisSet.HarrisSortedSet.StopAtUnlinked | Playground/Collections/Concurrent/HarrisSortedSet.cs:107-115 | stopping on the node just unlinked: found iff it held x, and x is not an element |
| HarrisSet.HarrisSortedSet.Walk | Playground/Collections/Concurrent/HarrisSortedSet.cs:96-116 | one pass keeps the set valid and its elements unchanged; it either asks for a restart having lowered the number of Dead nodes, or returns a located (left, right, found) with every node linked before right's position Alive; every key still linked was linked at the start of the search, and every key unlinked since then is below x or is right's key |
| HarrisSet.HarrisSortedSet.StopKeyLinked | Playground/Collections/Concurrent/HarrisSortedSet.cs:107-115 | stopping on a linked node that is not tail: its key was linked at the start of the search, it stays linked, and every key unlinked is below x or is that key |
| HarrisSet.HarrisSortedSet.StopKeyUnlinked | Playground/Collections/Concurrent/HarrisSortedSet.cs:101-115 | stopping on the Dead node just unlinked: its key was linked at the start of the search, it is no longer linked and is below the key now at its position, and every key unlinked is below x or is that key |
| HarrisSet.HarrisSortedSet.LocatedKeys | Playground/Collections/Concurrent/HarrisSortedSet.cs:96-116 | when a pass has located right: the linked keys are exactly those at the call less the Dead keys below x and less the least key not below x when Dead; right holds that least key, or is tail when every key was below x |
| HarrisSet.HarrisSortedSet.Search | Playground/Collections/Concurrent/HarrisSortedSet.cs:92-118 | the elements and counter are unchanged; the linked keys afterwards are exactly the keys at the call less the Dead keys below x and less the least key not below x when that one was Dead; right is tail when every key was below x, and otherwise holds the least key not below x; found iff x was a key, Alive or Dead, at the call; x was an element iff found on an Alive node; unless it unlinked something, left is the Alive node linked just before right |
| HarrisSet.HarrisSortedSet.LinksInsert | Playground/Collections/Concurrent/HarrisSortedSet.cs:66 | after the linking compare-and-set, the links in the heap match the chain with the new node inserted |
| HarrisSet.HarrisSortedSet.InsertKeepsValid | Playground/Collections/Concurrent/HarrisSortedSet.cs:66-68 | the state with the new node is valid; its key was absent; the linked keys and the elements each gain exactly that key; the number of Dead nodes is unchanged; if every key below the new one was an element, that still holds |
| HarrisSet.HarrisSortedSet.ShapedInsert | Playground/Collections/Concurrent/HarrisSortedSet.cs:62-68 | on values: the chain with the new node spliced in at its insertion point has distinct owned link cells, strictly ascending keys and a counter one higher; its key was absent; the linked keys and the elements each gain exactly that key; the number of Dead nodes is unchanged; if every key below the new one was an element, that still holds |
| HarrisSet.HarrisSortedSet.LocatedInsertionPoint | Playground/Collections/Concurrent/HarrisSortedSet.cs:60-66 | when the search did not find x and left still links to right Alive, right's position is x's insertion point and right, unless it is tail, is Alive |
| HarrisSet.HarrisSortedSet.LinkIn | Playground/Collections/Concurrent/HarrisSortedSet.cs:66-69 | links the new node iff left still links to right Alive; then x was not a key, the linked keys gain exactly x, the elements gain exactly x and the counter goes up by one; either way every linked key below x stays an element and the number of Dead nodes is unchanged; otherwise nothing changes, left's link included |
| HarrisSet.HarrisSortedSet.AddRound | Playground/Collections/Concurrent/HarrisSortedSet.cs:58-71 | one loop round either decides the add, and adds iff x was not a key, or leaves everything but the Dead nodes unchanged, with fewer of them; it is decided whenever x was a key; the linked keys afterwards are exactly those its search leaves, plus x when it added; when it adds, no Dead key run starts at x, since the key after x is Alive |
| HarrisSet.HarrisSortedSet.TryLink | Playground/Collections/Concurrent/HarrisSortedSet.cs:63-69 | after a search that did not find x: links iff left is Alive and still links to right Alive; on success the linked keys and the elements gain exactly x, the counter goes up by one and right, unless tail, was Alive; otherwise nothing changes and a Dead node was unlinked since the round began |
| HarrisSet.HarrisSortedSet.Add | Playground/Collections/Concurrent/HarrisSortedSet.cs:54-72 | adds iff x was not the key of any linked node; on success the elements gain exactly x and the counter goes up by one; otherwise elements and counter are unchanged; the linked keys afterwards are exactly those at the call, less the Dead keys below x and less x itself if it was a Dead key, or, when x was not a key, less every Dead key from x up to the first Alive key above it; plus x when added |
| HarrisSet.HarrisSortedSet.LinksMark | Playground/Collections/Concurrent/HarrisSortedSet.cs:84 | after the marking compare-and-set, the links in the heap match the chain with that node marked Dead |
| HarrisSet.HarrisSortedSet.MarkDead | Playground/Collections/Concurrent/HarrisSortedSet.cs:84-88 | the mark flip succeeds; the node was Alive and is now Dead; its key leaves the elements; the counter goes down by one; if every key below its key was an element, that still holds |
| HarrisSet.HarrisSortedSet.MarkKeepsValid | Playground/Collections/Concurrent/HarrisSortedSet.cs:84-87 | the state with the node marked Dead is valid, has exactly that key removed from the elements, and one more Dead node; if every key below that key was an element, that still holds |
| HarrisSet.HarrisSortedSet.Delete | Playground/Collections/Concurrent/HarrisSortedSet.cs:74-90 | deletes iff x was an element; the elements lose exactly x; the counter goes down by one on success and is unchanged otherwise; the linked keys afterwards are exactly those at the call less the Dead keys below x and less the least key not below x when Dead; and, when x was a Dead key, less the least key above x too when Dead, because the retried search passes x |
| HarrisSet.HarrisSortedSet.DeleteRound | Playground/Collections/Concurrent/HarrisSortedSet.cs:76-89 | one loop round: the linked keys are those its search leaves; it deletes iff x was an element, then the elements lose exactly x and the counter goes down by one; it is undecided iff x was a Dead key, and then the number of Dead nodes went down |
| HarrisSet.HarrisSortedSet.FoundLinked | Playground/Collections/Concurrent/HarrisSortedSet.cs:78-84 | a search that found x on an Alive node stopped on an interior linked node, so the mark flip has a node of the chain to act on |
| HarrisSet.HarrisSortedSet.Contains | Playground/Collections/Concurrent/HarrisSortedSet.cs:47-52 | true iff x is an element; elements and counter are unchanged; the linked keys afterwards are exactly those at the call less the Dead keys below x and less the least key not below x when that one was Dead |
| HarrisSet.HarrisSortedSet.Enumerate | Playground/Collections/Concurrent/HarrisSortedSet.cs:27-38 | yields exactly the elements: the Alive keys in chain order |
| HarrisSet.HarrisSortedSet.ElementsAscending | Playground/Collections/Concurrent/HarrisSortedSet.cs:27-38 | the elements ascend strictly, so the enumeration is sorted |
| HarrisSet.HarrisSortedSet.NoDeadKeys | Playground/Collections/Concurrent/HarrisSortedSet.cs:54-61 | with no Dead node linked, the keys that make `Add` fail are exactly the elements |
| HarrisSet.Iota | Playground/Collections.Tests/Concurrent/HarrisSortedSetTests.cs:16 | the run 0..n-1 is strictly ascending and holds exactly the integers from 0 to n-1 |
| HarrisSet.AddAll | Playground/Collections.Tests/Concurrent/HarrisSortedSetTests.cs:18-20 | adding distinct values to a new set succeeds every time, and the elements are exactly those values |
| HarrisSet.AddRun | Playground/Collections.Tests/Concurrent/HarrisSortedSetTests.cs:16-20 | adding 0..n-1 to a new set succeeds every time, and the elements are 0..n-1 in order |
| HarrisSet.FindEach | Playground/Collections.Tests/Concurrent/HarrisSortedSetTests.cs:25-26 | looking up values that are all present (or all absent) reports each as present (or absent) |
| HarrisSet.DeleteRun | Playground/Collections.Tests/Concurrent/HarrisSortedSetTests.cs:28-29 | deleting every element succeeds every time and leaves no element and a zero counter |
| HarrisSet.IncreaseThenDrain | Playground/Collections.Tests/Concurrent/HarrisSortedSetTests.cs:14-35 | adding 0..n-1 succeeds; the counter reads n; enumeration yields 0..n-1; all are found; all deletes succeed; none is found; the counter reads 0 |
| HarrisSet.DeleteThenAddAgain | Playground/Collections/Concurrent/HarrisSortedSet.cs:54-118 | add, delete, add, add of one x: the first add and the delete succeed; the second add fails on the Dead node its search unlinks; the third succeeds |
| HarrisSet.AddTwice | Playground/Collections/Concurrent/HarrisSortedSet.cs:54-61 | a second add of the same x is rejected and the counter stays at one |
| HarrisSet.DeleteThenLookUp | Playground/Collections/Concurrent/HarrisSortedSet.cs:47-90 | after a successful delete of x, a lookup of x and a second delete of x both fail, and the counter is zero |
| HarrisSet.DeleteThenSearchPast | Playground/Collections/Concurrent/HarrisSortedSet.cs:47-118 | add x, delete x, look up a larger y, add x: the add and delete succeed, the lookup fails, and its search unlinks the Dead node holding x, so the second add of x succeeds |
| HarrisSet.DeadPairThenSearch | Playground/Collections/Concurrent/HarrisSortedSet.cs:47-118 | with x < y both deleted and still linked, a lookup of x - 1 unlinks only x (the least key not below x - 1) and fails; an add of y then fails on the Dead node y and unlinks it, and a second add of y succeeds |
| HarrisSet.DeadPair | Playground/Collections/Concurrent/HarrisSortedSet.cs:54-90 | adding x and y to a new set and deleting y then x leaves both keys linked and no element |
| HarrisSet.AddOutOfOrder | Playground/Collections/Concurrent/HarrisSortedSet.cs:27-72 | adding 5, 3, 1, 4, 2 succeeds every time; enumeration yields 1, 2, 3, 4, 5; the counter reads 5 |
| HarrisSet.OneToFive | Playground/Collections/Concurrent/HarrisSortedSet.cs:27-38 | the only strictly ascending run whose members are 1..5 is 1, 2, 3, 4, 5 |

## Left out

- Concurrency is not modelled. One thread runs each operation to completion: `volatile`
  reads, `Interlocked.CompareExchange` and the interleavings of other threads are
  absent. A compare-and-set is a conditional assignment, and properties such as
  lock-freedom and linearizability are not stated.
- `AtomicInt` (`Playground/Collections/Concurrent/Utils/AtomicInt.cs`) is not part of
  this model. Each counter is a plain `int`, incremented and decremented in the same
  step as the structural change, so the advisory counter never lags the contents.
  The counter is unbounded. The source's counter is a 32-bit `int` changed by
  `Interlocked.Increment` and `Interlocked.Decrement`, which wrap around past
  2147483647; that wrap-around is not modelled.
- The sorted set's comparer (`IComparer<TElement>`, `Comparer<TElement>.Default` and the
  `Comparer` property) is left out. Keys are `int` ordered by `<`, and the three-way
  comparison is `<` and `==` on keys.
- The sorted set's sentinels hold `default`, modelled as `0`; the code never compares
  them. The queue's initial sentinel holds an arbitrary value of the element type, which
  is never read.
- A failed `TryPop`, `TryPeek`, `TryHead`, `TryTail` or `TryDequeue` sets its out element to
  `default` in the source. The model returns an arbitrary value of the element type
  there, and no contract says what it is: Dafny has no expression for a generic
  type's default value.
- Enumerators are modelled as methods that return the whole sequence. Lazy `yield`, the
  non-generic `IEnumerable.GetEnumerator` and weakly consistent enumeration under
  concurrent change are left out.
- `ReferenceWithMark` is modelled as an immutable datatype pair. With one thread, the
  identity check of the exchange on the pair object always succeeds once the fields
  match.
- Garbage collection and node allocation failure are left out. The link cells of nodes
  unlinked by a search stay in the sorted set's ghost footprint `Repr`.
- The queue's and stack's helping and retry paths are kept, but they never run, because
  only another thread can make them reachable:
  - the lagging-tail branches of `Enqueue` and `TryDequeue` are proved unreachable;
  - the retry loops of `Push`, `TryPop`, `Enqueue` and `TryDequeue` are proved to finish
    in one round, because the compare-and-set always succeeds.
- HarrisSet.HarrisSortedSet.MarkDead: its contract says the mark flip always succeeds.
  With one thread the pair it expects was just read, so the source's retry after a
  failed flip is unreachable and is not modelled.
- The source's `while (true)` loops of the sorted set are modelled with a proof of
  termination: every retry unlinks at least one Dead node. Under concurrency they need
  not terminate, which is not modelled.
- `Walk`, `SwingPast`, `AddRound`, `TryLink`, `LinkIn`, `DeleteRound` and `MarkDead` are
  not source methods. They are the inner pass of `Search`, its unlink step, one
  iteration of `Add`'s loop and its part after the search, the compare-and-set of
  `Add`, one iteration of `Delete`'s loop and its compare-and-set, split out as methods
  of their own.

=== FILE: atomics.dfy ===
/**
 * The atomic marked reference: a cell holding a (reference, mark) pair that is
 * read, replaced and compare-and-set as one unit.
 *
 * One thread is modelled: the interlocked exchange that publishes a new pair is
 * an ordinary assignment, so a compare-and-set is a conditional assignment that
 * writes only when the stored pair matches the expected one.
 */
module Atomics {

  /** The immutable pair the cell stores; replacing it swaps both fields at once. */
  datatype MarkedReference<R, M> = MarkedReference(reference: R, mark: M)

  class AtomicMarkableReference<R(==), M(==)> {
    var markedReference: MarkedReference<R, M>

    /** Stores exactly the given pair. */
    constructor (reference: R, mark: M)
      ensures markedReference == MarkedReference(reference, mark)
    {
      markedReference := MarkedReference(reference, mark);
    }

    /** The getter of the pair: the stored reference and mark, unchanged. */
    method Get() returns (reference: R, mark: M)
      ensures MarkedReference(reference, mark) == markedReference
    {
      reference := markedReference.reference;
      mark := markedReference.mark;
    }

    /** The setter of the pair: replaces reference and mark together, unconditionally. */
    method Set(reference: R, mark: M)
      modifies this
      ensures markedReference == MarkedReference(reference, mark)
    {
      markedReference := MarkedReference(reference, mark);
    }

    /**
     * Succeeds iff the stored reference is the expected one (for a class type
     * `==` is identity) and the stored mark equals the expected mark; then the
     * desired pair replaces the stored one. On failure nothing changes.
     */
    method CompareAndSet(source: MarkedReference<R, M>, destination: MarkedReference<R, M>)
      returns (ok: bool)
      modifies this
      ensures ok <==> old(markedReference.reference) == source.reference
                      && old(markedReference.mark) == source.mark
      ensures markedReference == if ok then destination else old(markedReference)
    {
      var localState := markedReference;
      ok := localState.reference == source.reference && localState.mark == source.mark;
      if ok {
        markedReference := destination;
      }
    }
  }
}

=== FILE: harris_set.dfy ===
/**
 * Harris's lock-free sorted set, run by one thread: a singly linked chain from
 * a `head` sentinel to a `tail` sentinel whose interior nodes hold strictly
 * ascending integer keys. Each node's link is an atomic marked reference
 * (successor, mark); the mark on a node's own link says whether that node is
 * Alive or logically deleted (Dead). Delete only flips a mark; a Dead node
 * stays linked until a later search unlinks it.
 *
 * The abstract state is ghost: `chain` lists the linked nodes from `head` to
 * `tail`, and `keys` and `marks` list the keys and marks of the interior
 * nodes. The set's elements are the keys whose mark is Alive.
 */
module HarrisSet {
  import opened Atomics
  import opened MarkedChain

  /** A set node: an immutable key and the cell holding its (successor, mark) link. */
  class Node {
    const element: int
    const next: AtomicMarkableReference<Node?, Status>

    constructor (element: int, next: AtomicMarkableReference<Node?, Status>)
      ensures this.element == element && this.next == next
    {
      this.element := element;
      this.next := next;
    }
  }

  /** A link value: the successor and the mark of the node that owns the link. */
  function Link(successor: Node?, mark: Status): MarkedReference<Node?, Status>
  {
    MarkedReference(successor, mark)
  }

  /** No two nodes of a chain share a link cell, so no node is linked twice. */
  ghost predicate DistinctLinks(chain: seq<Node>)
  {
    forall j, k :: 0 <= j < k < |chain| ==> chain[j].next != chain[k].next
  }

  /** Dropping the node at i keeps the link cells distinct, and none of the rest is that node's cell. */
  lemma DistinctLinksRemove(chain: seq<Node>, i: int)
    requires 0 <= i < |chain| && DistinctLinks(chain)
    ensures DistinctLinks(chain[..i] + chain[i + 1..])
    ensures forall n :: n in chain[..i] + chain[i + 1..] ==> n.next != chain[i].next
  {
    var chain' := chain[..i] + chain[i + 1..];
    forall j, k | 0 <= j < k < |chain'|
      ensures chain'[j].next != chain'[k].next
    {
      var oj := if j < i then j else j + 1;
      var ok := if k < i then k else k + 1;
      assert chain'[j] == chain[oj] && chain'[k] == chain[ok];
    }
    forall n | n in chain'
      ensures n.next != chain[i].next
    {
      var j :| 0 <= j < |chain'| && chain'[j] == n;
      var oj := if j < i then j else j + 1;
      assert chain'[j] == chain[oj];
    }
  }

  /** Inserting a node whose cell is new keeps the link cells distinct. */
  lemma DistinctLinksInsert(chain: seq<Node>, i: int, n: Node)
    requires 0 <= i <= |chain| && DistinctLinks(chain)
    requires forall m :: m in chain ==> m.next != n.next
    ensures DistinctLinks(chain[..i] + [n] + chain[i..])
  {
    var chain' := chain[..i] + [n] + chain[i..];
    forall j, k | 0 <= j < k < |chain'|
      ensures chain'[j].next != chain'[k].next
    {
      if j != i && k != i {
        var oj := if j < i then j else j - 1;
        var ok := if k < i then k else k - 1;
        assert chain'[j] == chain[oj] && chain'[k] == chain[ok];
      } else if j == i {
        assert chain'[k] == chain[k - 1];
      } else {
        assert chain'[j] == chain[j];
      }
    }
  }

  /**
   * In the current heap, each node of `chain` links to the next one carrying
   * its own mark: the first node (the head sentinel) is Alive, the interior
   * nodes hold `keys` and carry `marks`, and the last node (the tail sentinel)
   * links to null, Alive.
   */
  ghost predicate Links(chain: seq<Node>, keys: seq<int>, marks: seq<Status>)
    reads set n | n in chain :: n.next
  {
    && |chain| == |keys| + 2
    && |marks| == |keys|
    && chain[0].next.markedReference == Link(chain[1], Alive)
    && (forall j :: 0 <= j < |keys| ==>
          chain[j + 1].element == keys[j]
          && chain[j + 1].next.markedReference == Link(chain[j + 2], marks[j]))
    && chain[|chain| - 1].next.markedReference == Link(null, Alive)
  }

  class HarrisSortedSet {
    const head: Node
    const tail: Node
    var count: int
    /** The linked nodes, `head` first and `tail` last, Dead ones included. */
    ghost var chain: seq<Node>
    /** The keys of the interior nodes of `chain`, in chain order. */
    ghost var keys: seq<int>
    /** The marks on the interior nodes' own links, in chain order. */
    ghost var marks: seq<Status>
    /** Every link cell ever linked; unlinked nodes keep theirs here. */
    ghost var Repr: set<object>

    /**
     * The chain runs from `head` to `tail` along the links; the sentinels are
     * Alive; the interior keys ascend strictly; no two linked nodes share a
     * link cell; and the counter equals the number of Alive keys.
     */
    ghost predicate Valid()
      reads this, Repr
    {
      && this in Repr
      && Shaped(chain, keys, marks, Repr, count)
      && Links(chain, keys, marks)
    }

    /**
     * The part of `Valid` that does not depend on the link cells' contents:
     * the chain runs from `head` to `tail` with one key and one mark per
     * interior node, its cells are distinct and owned, the keys ascend
     * strictly, and the counter equals the number of Alive keys.
     */
    ghost predicate Shaped(c: seq<Node>, k: seq<int>, m: seq<Status>, R: set<object>, n: int)
    {
      && |c| == |k| + 2
      && |m| == |k|
      && c[0] == head
      && c[|c| - 1] == tail
      && (forall node :: node in c ==> node.next in R)
      && DistinctLinks(c)
      && StrictlyAscending(k)
      && n == |AliveKeys(k, m)|
    }

    /** The abstract set: the Alive keys in chain order, which is ascending order. */
    ghost function Elements(): seq<int>
      reads this
      requires |keys| == |marks|
    {
      AliveKeys(keys, marks)
    }

    /** A new set links `head` to `tail`, both Alive, and counts zero elements. */
    constructor ()
      ensures Valid() && fresh(Repr)
      ensures head.next.markedReference == Link(tail, Alive)
      ensures tail.next.markedReference == Link(null, Alive)
      ensures keys == [] && Elements() == [] && count == 0
    {
      var tailLink := new AtomicMarkableReference<Node?, Status>(null, Alive);
      var t := new Node(0, tailLink);
      var headLink := new AtomicMarkableReference<Node?, Status>(t, Alive);
      var h := new Node(0, headLink);
      tail := t;
      head := h;
      count := 0;
      chain := [h, t];
      keys := [];
      marks := [];
      Repr := {this, headLink, tailLink};
    }

    /** The counter, which one thread keeps equal to the number of elements. */
    function Count(): (r: int)
      reads this, Repr
      requires Valid()
      ensures r == |Elements()|
    {
      count
    }

    /**
     * Swinging the link of the Alive node at i - 1 past the Dead node at i,
     * with every other link cell untouched, leaves the links matching the
     * chain without that node.
     */
    twostate lemma LinksUnlink(i: int)
      requires old(Links(chain, keys, marks)) && DistinctLinks(old(chain))
      requires 1 <= i < |old(chain)| - 1 && old(marks)[i - 1] == Dead && (i == 1 || old(marks)[i - 2] == Alive)
      requires old(chain)[i - 1].next.markedReference == Link(old(chain)[i + 1], Alive)
      requires forall n :: n in old(chain) && n.next != old(chain)[i - 1].next ==>
                 n.next.markedReference == old(n.next.markedReference)
      requires chain == old(chain)[..i] + old(chain)[i + 1..]
      requires keys == old(keys)[..i - 1] + old(keys)[i..] && marks == old(marks)[..i - 1] + old(marks)[i..]
      ensures Links(chain, keys, marks)
    {
      var c0, k0, m0 := old(chain), old(keys), old(marks);
      forall j | 0 <= j < |keys|
        ensures chain[j + 1].element == keys[j]
        ensures chain[j + 1].next.markedReference == Link(chain[j + 2], marks[j])
      {
        if j < i - 2 {
          assert chain[j + 1] == c0[j + 1] && chain[j + 2] == c0[j + 2];
          assert keys[j] == k0[j] && marks[j] == m0[j];
          assert c0[j + 1] in c0 && c0[j + 1].next != c0[i - 1].next;
        } else if j == i - 2 {
          assert chain[j + 1] == c0[i - 1] && chain[j + 2] == c0[i + 1];
          assert keys[j] == k0[j] && marks[j] == m0[j];
        } else {
          assert chain[j + 1] == c0[j + 2] && chain[j + 2] == c0[j + 3];
          assert keys[j] == k0[j + 1] && marks[j] == m0[j + 1];
          assert c0[j + 2] in c0 && c0[j + 2].next != c0[i - 1].next;
        }
      }
      assert c0[0] in c0 && c0[|c0| - 1] in c0;
    }

    /**
     * An unlink keeps the set valid: from a valid chain `c0` whose Dead node at
     * i has been spliced out of the ghost state, once the links match the
     * spliced chain.
     */
    lemma UnlinkKeepsValid(c0: seq<Node>, k0: seq<int>, m0: seq<Status>, i: int)
      requires this in Repr && |c0| == |k0| + 2 && |m0| == |k0| && c0[0] == head && c0[|c0| - 1] == tail
      requires (forall n :: n in c0 ==> n.next in Repr) && DistinctLinks(c0)
      requires StrictlyAscending(k0) && count == |AliveKeys(k0, m0)|
      requires 1 <= i < |c0| - 1 && m0[i - 1] == Dead
      requires chain == c0[..i] + c0[i + 1..]
      requires keys == k0[..i - 1] + k0[i..] && marks == m0[..i - 1] + m0[i..]
      requires Links(chain, keys, marks)
      ensures Valid()
      ensures AliveKeys(keys, marks) == AliveKeys(k0, m0)
      ensures DeadCount(marks) == DeadCount(m0) - 1
      ensures forall n :: n in chain ==> n.next != c0[i].next
      ensures forall j :: 0 <= j < i - 1 ==> marks[j] == m0[j]
      ensures chain[i - 1] == c0[i - 1] && chain[i] == c0[i + 1]
    {
      Unlink(k0, m0, i - 1);
      DeadCountRemove(m0, i - 1);
      RemoveAscending(k0, i - 1);
      DistinctLinksRemove(c0, i);
      assert forall n :: n in chain ==> n in c0;
    }

    /**
     * The state of a pass at the top of its loop: `current` is linked at
     * position i, every key before it is below x, and `predecessor` is either
     * the Alive node linked just before `current` or (when `detached`) a Dead
     * node this pass unlinked, whose link still leads to `current`. Every node
     * linked before `current` is Alive: the pass has unlinked the Dead ones.
     */
    ghost predicate Walking(x: int, predecessor: Node, current: Node?, i: int, detached: bool, passStart: int)
      reads this, Repr
    {
      && Valid()
      && 1 <= i < |chain| && current == chain[i]
      && (i == 1 || keys[i - 2] < x)
      && (forall j :: 0 <= j < i - 1 ==> marks[j] == Alive)
      && (predecessor == head || predecessor.element < x)
      && DeadCount(marks) <= passStart
      && predecessor.next in Repr
      && (!detached ==> predecessor == chain[i - 1] && (i == 1 || marks[i - 2] == Alive))
      && (detached ==> && predecessor.next.markedReference == Link(current, Dead)
                       && (forall n :: n in chain ==> n.next != predecessor.next)
                       && DeadCount(marks) < passStart)
    }

    /**
     * The state of a pass once it has read `current`'s link and, when
     * `current` was Dead, unlinked it (`unlinked`). `k0` and `m0` are the keys
     * and marks before that unlink.
     */
    ghost predicate AtCurrent(x: int, predecessor: Node, current: Node, successor: Node?, i: int,
                              detached: bool, unlinked: bool, passStart: int, k0: seq<int>, m0: seq<Status>)
      reads this, Repr
    {
      && Valid()
      && predecessor.next in Repr && current.next in Repr
      && (predecessor == head || predecessor.element < x)
      && 1 <= i < |chain| && (i == 1 || keys[i - 2] < x)
      && (forall j :: 0 <= j < i - 1 ==> marks[j] == Alive)
      && DeadCount(marks) <= passStart
      && (!unlinked ==>
            && k0 == keys && m0 == marks
            && current == chain[i]
            && current.next.markedReference == Link(successor, Alive)
            && (!detached ==> predecessor == chain[i - 1] && (i == 1 || marks[i - 2] == Alive))
            && (detached ==> predecessor.next.markedReference.mark == Dead && DeadCount(marks) < passStart))
      && (unlinked ==>
            && |k0| == |keys| + 1 && |m0| == |k0| && i <= |keys| + 1
            && keys == k0[..i - 1] + k0[i..]
            && StrictlyAscending(k0)
            && current.element == k0[i - 1] && m0[i - 1] == Dead
            && AliveKeys(keys, marks) == AliveKeys(k0, m0)
            && successor == chain[i]
            && current.next.markedReference == Link(successor, Dead)
            && (forall n :: n in chain ==> n.next != current.next)
            && predecessor == chain[i - 1]
            && predecessor.next.markedReference == Link(successor, Alive)
            && DeadCount(marks) < passStart)
    }

    /**
     * The unlinking compare-and-set of a search: swings `predecessor`'s link
     * from (current, Alive) to (successor, Alive). It succeeds iff
     * `predecessor` is the Alive node linked just before the Dead node
     * `current`, and then `current` leaves the chain.
     */
    method SwingPast(ghost x: int, predecessor: Node, current: Node, successor: Node?, ghost i: int,
                     ghost detached: bool, ghost passStart: int) returns (swung: bool)
      requires Walking(x, predecessor, current, i, detached, passStart)
      requires current.next.markedReference == Link(successor, Dead)
      modifies predecessor.next, this`chain, this`keys, this`marks
      ensures Repr == old(Repr) && count == old(count)
      ensures swung == !detached
      ensures !swung ==> chain == old(chain) && keys == old(keys) && marks == old(marks)
      ensures !swung ==> predecessor.next.markedReference == old(predecessor.next.markedReference)
      ensures !swung ==> Valid() && DeadCount(marks) < passStart
      ensures swung ==> AtCurrent(x, predecessor, current, successor, i, detached, true, passStart, old(keys), old(marks))
    {
      ghost var c0, k0, m0 := chain, keys, marks;
      swung := predecessor.next.CompareAndSet(Link(current, Alive), Link(successor, Alive));
      if swung {
        chain := c0[..i] + c0[i + 1..];
        keys := k0[..i - 1] + k0[i..];
        marks := m0[..i - 1] + m0[i..];
        LinksUnlink(i);
        UnlinkKeepsValid(c0, k0, m0, i);
      }
    }

    /** Reading an Alive `current` leaves the pass ready to judge it. */
    lemma JudgeAlive(x: int, predecessor: Node, current: Node, successor: Node?, i: int, detached: bool, passStart: int)
      requires Walking(x, predecessor, current, i, detached, passStart)
      requires current.next.markedReference == Link(successor, Alive)
      ensures AtCurrent(x, predecessor, current, successor, i, detached, false, passStart, keys, marks)
    {
    }

    /** Stepping past a node whose key is below x keeps the pass's invariant. */
    lemma Advance(x: int, predecessor: Node, current: Node, successor: Node?, i: int,
                  detached: bool, unlinked: bool, passStart: int, k0: seq<int>, m0: seq<Status>,
                  keys0: seq<int>, elements0: seq<int>)
      requires AtCurrent(x, predecessor, current, successor, i, detached, unlinked, passStart, k0, m0)
      requires current != tail && current.element < x
      requires (x in k0 <==> x in keys0) && AliveKeys(k0, m0) == elements0
      requires Within(k0, keys0) && DroppedOr(keys0, k0, x, x - 1)
      ensures Walking(x, current, successor, if unlinked then i else i + 1, unlinked, passStart)
      ensures x in keys <==> x in keys0
      ensures Elements() == elements0
      ensures Within(keys, keys0) && DroppedOr(keys0, keys, x, x - 1)
    {
      if unlinked {
        AdvanceUnlinked(x, predecessor, current, successor, i, detached, passStart, k0, m0);
        RemoveWithin(k0, keys, keys0, x, i - 1);
        DroppedBelow(keys0, keys, x, k0[i - 1]);
      } else {
        AdvanceLinked(x, predecessor, current, successor, i, detached, passStart);
      }
    }

    /** `Advance` past a node still linked: the next position in the chain. */
    lemma AdvanceLinked(x: int, predecessor: Node, current: Node, successor: Node?, i: int,
                        detached: bool, passStart: int)
      requires AtCurrent(x, predecessor, current, successor, i, detached, false, passStart, keys, marks)
      requires current != tail && current.element < x
      ensures Walking(x, current, successor, i + 1, false, passStart)
    {
      assert current != chain[|chain| - 1];
      assert i < |chain| - 1;
    }

    /**
     * `Advance` past the node this pass just unlinked: the pass stands on a
     * detached node whose successor now holds position i.
     */
    lemma AdvanceUnlinked(x: int, predecessor: Node, current: Node, successor: Node?, i: int,
                          detached: bool, passStart: int, k0: seq<int>, m0: seq<Status>)
      requires AtCurrent(x, predecessor, current, successor, i, detached, true, passStart, k0, m0)
      requires current != tail && current.element < x
      ensures Walking(x, current, successor, i, true, passStart)
      ensures x in keys <==> x in k0
    {
      assert k0 == k0[..i - 1] + [k0[i - 1]] + k0[i..];
    }

    /**
     * The search's result relative to the state it started from (`keys0`,
     * `elements0`, `dead0`): `right` is the first node whose key is not below
     * x, or `tail`; `found` says it holds x; x is an element iff it was found
     * on an Alive node; every node linked before `right`'s position ri is
     * Alive; and unless the search unlinked something, `left` is the Alive node
     * linked just before `right`.
     */
    ghost predicate Located(x: int, left: Node, right: Node, found: bool, ri: int,
                            keys0: seq<int>, elements0: seq<int>, dead0: int)
      reads this, Repr
      requires Valid() && left.next in Repr && right.next in Repr
    {
      && found == (x in keys0)
      && found == (right != tail && right.element == x)
      && (x in elements0) == (found && right.next.markedReference.mark == Alive)
      && (found && right.next.markedReference.mark == Dead ==> x !in keys)
      && (left == head || left.element < x)
      && (right == tail || x <= right.element)
      && 1 <= ri < |chain| && (ri == 1 || keys[ri - 2] < x)
      && (ri - 1 < |keys| ==> x <= keys[ri - 1])
      && (forall j :: 0 <= j < ri - 1 ==> marks[j] == Alive)
      && (left.next.markedReference == Link(right, Alive) ==>
            1 <= ri < |chain| && chain[ri - 1] == left && chain[ri] == right)
      && (left.next.markedReference != Link(right, Alive) ==> DeadCount(marks) < dead0)
      && (right.next.markedReference.mark == Alive ==>
            1 <= ri < |chain| && chain[ri] == right && (ri < |chain| - 1 ==> marks[ri - 1] == Alive))
      && (right.next.markedReference.mark == Dead ==> DeadCount(marks) < dead0)
    }

    /**
     * Where a pass stopped, relative to the keys `keys0` the search started
     * from: the key of `right` was one of them, and a Dead `right` is the
     * node the pass unlinked, its key now gone and below the key that took
     * its place.
     */
    ghost predicate StopKey(right: Node, ri: int, keys0: seq<int>)
      reads this, Repr
      requires Valid() && right.next in Repr
    {
      && (right != tail ==> right.element in keys0)
      && (right.next.markedReference.mark == Dead ==>
            right.element !in keys && (0 <= ri - 1 < |keys| ==> right.element < keys[ri - 1]))
    }

    /**
     * The search stops at the first node whose key is not below x: every key
     * linked before position ri is below x, and when it stops at `tail`, every
     * linked key is. Every linked key below x is an element: the search has
     * unlinked the Dead nodes below x.
     */
    lemma LocatedFirst(x: int, left: Node, right: Node, found: bool, ri: int,
                       keys0: seq<int>, elements0: seq<int>, dead0: int)
      requires Valid() && left.next in Repr && right.next in Repr
      requires Located(x, left, right, found, ri, keys0, elements0, dead0)
      ensures forall j :: 0 <= j < ri - 1 ==> keys[j] < x
      ensures right != tail ==> x <= right.element
      ensures right == tail ==> ri == |chain| - 1 && forall y :: y in keys ==> y < x
      ensures SweptBelow(keys, marks, x)
    {
      forall j | 0 <= j < ri - 1
        ensures keys[j] < x
      {
        assert j == ri - 2 || keys[j] < keys[ri - 2];
      }
      if right == tail {
        assert tail.next.markedReference.mark == Alive;
        assert chain[|chain| - 1] == tail && chain[ri] == tail;
        assert ri == |chain| - 1;
      }
      forall y | y in keys && y < x
        ensures y in AliveKeys(keys, marks)
      {
        var j :| 0 <= j < |keys| && keys[j] == y;
        assert j < ri - 1;
        AliveKeyAt(keys, marks, j);
      }
    }

    /**
     * What the search leaves linked, given where it stopped and that it has
     * only dropped keys below x or the key of `right`: exactly the keys of
     * `keys0` it unlinks; and `right` holds the least of them not below x.
     */
    lemma LocatedKeys(x: int, left: Node, right: Node, found: bool, ri: int,
                      keys0: seq<int>, elements0: seq<int>, dead0: int)
      requires Valid() && left.next in Repr && right.next in Repr
      requires Located(x, left, right, found, ri, keys0, elements0, dead0) && StopKey(right, ri, keys0)
      requires forall j :: 0 <= j < ri - 1 ==> keys[j] < x
      requires right == tail ==> ri == |chain| - 1
      requires SweptBelow(keys, marks, x)
      requires Elements() == elements0 && Within(keys, keys0)
      requires DroppedOr(keys0, keys, x, if right == tail then x - 1 else right.element)
      ensures forall y :: y in keys <==> y in keys0 && !UnlinkedBySearch(keys0, elements0, x, y)
      ensures right != tail ==> LeastFrom(keys0, x, right.element)
      ensures right == tail ==> forall y :: y in keys0 ==> y < x
    {
      if right != tail && right.next.markedReference.mark == Alive {
        assert chain[|chain| - 1] == tail && chain[ri] == right;
        AliveKeyAt(keys, marks, ri - 1);
      }
      SearchedFrom(keys0, keys, marks, x, ri - 1, right != tail, right.element);
    }

    /** A pass that reaches `tail` has located x past every key: x is absent. */
    lemma StopAtTail(x: int, predecessor: Node, current: Node, successor: Node?, i: int,
                     detached: bool, unlinked: bool, passStart: int, k0: seq<int>, m0: seq<Status>,
                     keys0: seq<int>, elements0: seq<int>, dead0: int)
      requires AtCurrent(x, predecessor, current, successor, i, detached, unlinked, passStart, k0, m0)
      requires current == tail
      requires (x in k0 <==> x in keys0) && AliveKeys(k0, m0) == elements0 && passStart <= dead0
      requires Within(k0, keys0) && DroppedOr(keys0, k0, x, x - 1)
      ensures x !in keys && Elements() == elements0 && DeadCount(marks) <= passStart
      ensures Within(keys, keys0) && DroppedOr(keys0, keys, x, x - 1)
      ensures StopKey(current, i, keys0)
      ensures Located(x, predecessor, current, false, i, keys0, elements0, dead0)
    {
      assert !unlinked;
      assert i == |chain| - 1;
      Gap(keys, i - 1, x);
      AliveKeysSubset(keys, marks);
    }

    /** A pass that reaches a node whose key is not below x stops there. */
    lemma StopAt(x: int, predecessor: Node, current: Node, successor: Node?, i: int,
                 detached: bool, unlinked: bool, passStart: int, k0: seq<int>, m0: seq<Status>,
                 keys0: seq<int>, elements0: seq<int>, dead0: int)
      requires AtCurrent(x, predecessor, current, successor, i, detached, unlinked, passStart, k0, m0)
      requires current != tail && x <= current.element
      requires (x in k0 <==> x in keys0) && AliveKeys(k0, m0) == elements0 && passStart <= dead0
      requires Within(k0, keys0) && DroppedOr(keys0, k0, x, x - 1)
      ensures x in keys ==> x in keys0
      ensures Elements() == elements0 && DeadCount(marks) <= passStart
      ensures Within(keys, keys0) && DroppedOr(keys0, keys, x, current.element)
      ensures Located(x, predecessor, current, current.element == x, i, keys0, elements0, dead0)
      ensures StopKey(current, i, keys0)
    {
      if unlinked {
        StopAtUnlinked(x, predecessor, current, successor, i, detached, passStart, k0, m0, keys0, elements0, dead0);
        StopKeyUnlinked(x, predecessor, current, successor, i, detached, passStart, k0, m0, keys0);
      } else {
        StopAtLinked(x, predecessor, current, successor, i, detached, passStart, keys0, elements0, dead0);
        StopKeyLinked(x, predecessor, current, successor, i, detached, passStart, keys0);
      }
    }

    /** `StopAt` on a node still linked: its own mark decides membership. */
    lemma StopAtLinked(x: int, predecessor: Node, current: Node, successor: Node?, i: int,
                       detached: bool, passStart: int, keys0: seq<int>, elements0: seq<int>, dead0: int)
      requires AtCurrent(x, predecessor, current, successor, i, detached, false, passStart, keys, marks)
      requires current != tail && x <= current.element
      requires (x in keys <==> x in keys0) && AliveKeys(keys, marks) == elements0 && passStart <= dead0
      ensures Elements() == elements0
      ensures Located(x, predecessor, current, current.element == x, i, keys0, elements0, dead0)
    {
      assert i < |chain| - 1;
      if current.element == x {
        AliveKeyAt(keys, marks, i - 1);
      } else {
        Gap(keys, i - 1, x);
        AliveKeysSubset(keys, marks);
      }
    }

    /**
     * `StopAt` on the Dead node this pass just unlinked: x was a key iff that
     * node held it, and it was not an element.
     */
    lemma StopAtUnlinked(x: int, predecessor: Node, current: Node, successor: Node?, i: int,
                         detached: bool, passStart: int, k0: seq<int>, m0: seq<Status>,
                         keys0: seq<int>, elements0: seq<int>, dead0: int)
      requires AtCurrent(x, predecessor, current, successor, i, detached, true, passStart, k0, m0)
      requires current != tail && x <= current.element
      requires (x in k0 <==> x in keys0) && AliveKeys(k0, m0) == elements0 && passStart <= dead0
      ensures x in keys ==> x in keys0
      ensures Elements() == elements0
      ensures Located(x, predecessor, current, current.element == x, i, keys0, elements0, dead0)
    {
      StopOnRemoved(k0, m0, i - 1, x);
    }

    /** `StopKey` on a node still linked: it is Alive, and its key is linked. */
    lemma StopKeyLinked(x: int, predecessor: Node, current: Node, successor: Node?, i: int,
                        detached: bool, passStart: int, keys0: seq<int>)
      requires AtCurrent(x, predecessor, current, successor, i, detached, false, passStart, keys, marks)
      requires current != tail
      requires Within(keys, keys0) && DroppedOr(keys0, keys, x, x - 1)
      ensures StopKey(current, i, keys0)
      ensures Within(keys, keys0) && DroppedOr(keys0, keys, x, current.element)
    {
      assert keys[i - 1] in keys;
    }

    /** `StopKey` on the Dead node the pass just unlinked: its key is gone. */
    lemma StopKeyUnlinked(x: int, predecessor: Node, current: Node, successor: Node?, i: int,
                          detached: bool, passStart: int, k0: seq<int>, m0: seq<Status>, keys0: seq<int>)
      requires AtCurrent(x, predecessor, current, successor, i, detached, true, passStart, k0, m0)
      requires Within(k0, keys0) && DroppedOr(keys0, k0, x, x - 1)
      ensures StopKey(current, i, keys0)
      ensures Within(keys, keys0) && DroppedOr(keys0, keys, x, current.element)
    {
      RemoveGone(k0, i - 1);
      RemoveWithin(k0, keys, keys0, x, i - 1);
    }

    /**
     * One pass of the search from `head`: unlinks each Dead node it meets
     * whose predecessor is the Alive node before it, and stops at the first
     * node whose key is not below x, or at `tail`. A failed unlink means this
     * pass stands on a node it unlinked itself, and asks for a restart.
     * `keys0`, `elements0` and `dead0` describe the state the whole search
     * started from.
     */
    method Walk(x: int, ghost keys0: seq<int>, ghost elements0: seq<int>, ghost dead0: int)
      returns (restart: bool, left: Node, right: Node, found: bool, ghost ri: int)
      requires Valid()
      requires (x in keys <==> x in keys0) && Elements() == elements0 && DeadCount(marks) <= dead0
      requires Within(keys, keys0) && DroppedOr(keys0, keys, x, x - 1)
      modifies Repr
      ensures Valid() && Repr == old(Repr) && count == old(count)
      ensures Elements() == elements0
      ensures x in keys ==> x in keys0
      ensures Within(keys, keys0)
      ensures DroppedOr(keys0, keys, x, if restart || right == tail then x - 1 else right.element)
      ensures DeadCount(marks) <= old(DeadCount(marks))
      ensures restart ==> DeadCount(marks) < old(DeadCount(marks)) && (x in keys <==> x in keys0)
      ensures left.next in Repr && right.next in Repr
      ensures !restart ==> Located(x, left, right, found, ri, keys0, elements0, dead0)
      ensures !restart ==> StopKey(right, ri, keys0)
    {
      ghost var passStart := DeadCount(marks);
      var predecessor: Node := head;
      var current, _ := predecessor.next.Get();
      ghost var i := 1;
      ghost var detached := false;
      while true
        invariant Walking(x, predecessor, current, i, detached, passStart)
        invariant Repr == old(Repr) && count == old(count) && Elements() == elements0
        invariant x in keys <==> x in keys0
        invariant Within(keys, keys0) && DroppedOr(keys0, keys, x, x - 1)
        decreases |chain| - i
      {
        ghost var k0, m0 := keys, marks;
        var successor, currentStatus := current.next.Get();
        ghost var unlinked := false;
        if currentStatus == Dead {
          var swung := SwingPast(x, predecessor, current, successor, i, detached, passStart);
          if !swung {
            return true, predecessor, current, false, i;
          }
          unlinked := true;
        } else {
          JudgeAlive(x, predecessor, current, successor, i, detached, passStart);
        }
        if current == tail {
          StopAtTail(x, predecessor, current, successor, i, detached, unlinked, passStart, k0, m0, keys0, elements0, dead0);
          return false, predecessor, current, false, i;
        }
        if current.element < x {
          Advance(x, predecessor, current, successor, i, detached, unlinked, passStart, k0, m0, keys0, elements0);
          predecessor := current;
          current := successor;
          i, detached := if unlinked then i else i + 1, unlinked;
        } else {
          found := current.element == x;
          StopAt(x, predecessor, current, successor, i, detached, unlinked, passStart, k0, m0, keys0, elements0, dead0);
          return false, predecessor, current, found, i;
        }
      }
    }

    /**
     * Locates x: repeats passes until one completes without a failed unlink.
     * Every restart has unlinked at least one Dead node, so there are at most
     * as many passes as there were Dead nodes linked, plus one.
     */
    method Search(x: int) returns (left: Node, right: Node, found: bool, ghost ri: int)
      requires Valid()
      modifies Repr
      ensures Valid() && Repr == old(Repr) && count == old(count)
      ensures Elements() == old(Elements())
      ensures DeadCount(marks) <= old(DeadCount(marks))
      ensures x in keys ==> x in old(keys)
      ensures left.next in Repr && right.next in Repr
      ensures Located(x, left, right, found, ri, old(keys), old(Elements()), old(DeadCount(marks)))
      ensures StopKey(right, ri, old(keys))
      ensures SweptBelow(keys, marks, x)
      ensures forall y :: y in keys <==> y in old(keys) && !UnlinkedBySearch(old(keys), old(Elements()), x, y)
      ensures right != tail ==> LeastFrom(old(keys), x, right.element)
      ensures right == tail ==> forall y :: y in old(keys) ==> y < x
    {
      while true
        invariant Valid() && Repr == old(Repr) && count == old(count)
        invariant Elements() == old(Elements())
        invariant DeadCount(marks) <= old(DeadCount(marks))
        invariant x in keys <==> x in old(keys)
        invariant Within(keys, old(keys)) && DroppedOr(old(keys), keys, x, x - 1)
        decreases DeadCount(marks)
      {
        var restart;
        restart, left, right, found, ri := Walk(x, old(keys), old(Elements()), old(DeadCount(marks)));
        if !restart {
          LocatedFirst(x, left, right, found, ri, old(keys), old(Elements()), old(DeadCount(marks)));
          LocatedKeys(x, left, right, found, ri, old(keys), old(Elements()), old(DeadCount(marks)));
          return;
        }
      }
    }

    /**
     * Swinging the link of the Alive node at ri - 1 onto a new node whose own
     * link is (chain[ri], Alive), with every other link cell untouched, leaves
     * the links matching the chain with that node inserted at ri.
     */
    twostate lemma LinksInsert(ri: int)
      requires old(Links(chain, keys, marks)) && DistinctLinks(old(chain))
      requires 1 <= ri < |old(chain)| && |chain| == |old(chain)| + 1
      requires chain == old(chain)[..ri] + [chain[ri]] + old(chain)[ri..]
      requires keys == old(keys)[..ri - 1] + [chain[ri].element] + old(keys)[ri - 1..]
      requires marks == old(marks)[..ri - 1] + [Alive] + old(marks)[ri - 1..]
      requires old(chain)[ri - 1].next.markedReference == Link(chain[ri], Alive)
      requires ri == 1 || old(marks)[ri - 2] == Alive
      requires chain[ri].next.markedReference == Link(old(chain)[ri], Alive)
      requires forall n :: n in old(chain) && n.next != old(chain)[ri - 1].next ==>
                 n.next.markedReference == old(n.next.markedReference)
      ensures Links(chain, keys, marks)
    {
      var c0, k0, m0 := old(chain), old(keys), old(marks);
      forall j | 0 <= j < |keys|
        ensures chain[j + 1].element == keys[j]
        ensures chain[j + 1].next.markedReference == Link(chain[j + 2], marks[j])
      {
        if j < ri - 2 {
          assert chain[j + 1] == c0[j + 1] && chain[j + 2] == c0[j + 2];
          assert keys[j] == k0[j] && marks[j] == m0[j];
          assert c0[j + 1] in c0 && c0[j + 1].next != c0[ri - 1].next;
        } else if j == ri - 2 {
          assert chain[j + 1] == c0[ri - 1] && chain[j + 2] == chain[ri];
          assert keys[j] == k0[j] && marks[j] == m0[j];
        } else if j == ri - 1 {
          assert chain[j + 2] == c0[ri];
          assert keys[j] == chain[ri].element && marks[j] == Alive;
        } else {
          assert chain[j + 1] == c0[j] && chain[j + 2] == c0[j + 1];
          assert keys[j] == k0[j - 1] && marks[j] == m0[j - 1];
          assert c0[j] in c0 && c0[j].next != c0[ri - 1].next;
        }
      }
      assert c0[0] in c0 && c0[|c0| - 1] in c0;
      assert chain[0] == c0[0] && chain[|chain| - 1] == c0[|c0| - 1];
    }

    /**
     * An insertion keeps the set valid: from a valid chain `c0`, with the new
     * node spliced in at ri between keys below and above its own, once the
     * links match and the counter has been incremented.
     */
    lemma InsertKeepsValid(c0: seq<Node>, k0: seq<int>, m0: seq<Status>, R0: set<object>, n0: int,
                           ri: int, inserting: Node)
      requires Shaped(c0, k0, m0, R0, n0) && this in R0
      requires 1 <= ri < |c0|
      requires ri > 1 ==> k0[ri - 2] < inserting.element
      requires ri - 1 < |k0| ==> inserting.element < k0[ri - 1]
      requires inserting.next !in R0
      requires Repr == R0 + {inserting.next} && count == n0 + 1
      requires chain == c0[..ri] + [inserting] + c0[ri..]
      requires keys == k0[..ri - 1] + [inserting.element] + k0[ri - 1..]
      requires marks == m0[..ri - 1] + [Alive] + m0[ri - 1..]
      requires Links(chain, keys, marks)
      ensures Valid()
      ensures inserting.element !in k0
      ensures forall y :: y in keys <==> y in k0 || y == inserting.element
      ensures forall y :: y in AliveKeys(keys, marks) <==> y in AliveKeys(k0, m0) || y == inserting.element
      ensures DeadCount(marks) == DeadCount(m0)
      ensures SweptBelow(k0, m0, inserting.element) ==> SweptBelow(keys, marks, inserting.element)
    {
      ShapedInsert(c0, k0, m0, R0, n0, ri, inserting, chain, keys, marks, Repr, count);
    }

    /**
     * `InsertKeepsValid` on values: the spliced chain, keys and marks are
     * `Shaped`, and the Alive keys gain exactly the new key.
     */
    lemma ShapedInsert(c0: seq<Node>, k0: seq<int>, m0: seq<Status>, R0: set<object>, n0: int,
                       ri: int, inserting: Node, c: seq<Node>, k: seq<int>, m: seq<Status>,
                       R: set<object>, n: int)
      requires Shaped(c0, k0, m0, R0, n0)
      requires 1 <= ri < |c0|
      requires ri > 1 ==> k0[ri - 2] < inserting.element
      requires ri - 1 < |k0| ==> inserting.element < k0[ri - 1]
      requires inserting.next !in R0
      requires c == c0[..ri] + [inserting] + c0[ri..]
      requires k == k0[..ri - 1] + [inserting.element] + k0[ri - 1..]
      requires m == m0[..ri - 1] + [Alive] + m0[ri - 1..]
      requires R == R0 + {inserting.next} && n == n0 + 1
      ensures Shaped(c, k, m, R, n)
      ensures inserting.element !in k0
      ensures forall y :: y in k <==> y in k0 || y == inserting.element
      ensures forall y :: y in AliveKeys(k, m) <==> y in AliveKeys(k0, m0) || y == inserting.element
      ensures DeadCount(m) == DeadCount(m0)
      ensures SweptBelow(k0, m0, inserting.element) ==> SweptBelow(k, m, inserting.element)
    {
      LinkAlive(k0, m0, ri - 1, inserting.element, k, m);
      SpliceMembers(k0, ri - 1, inserting.element);
      assert forall n :: n in c0 ==> n.next != inserting.next;
      DistinctLinksInsert(c0, ri, inserting);
      SpliceMembers(c0, ri, inserting);
      assert c[0] == c0[0] && c[|c| - 1] == c0[|c0| - 1];
    }

    /**
     * x belongs between `left`, linked at ri - 1 and Alive, and `right`,
     * linked at ri: every key before ri is below x and every key from ri on
     * is above it.
     */
    ghost predicate InsertionPoint(x: int, left: Node, right: Node, ri: int)
      reads this
    {
      && |chain| == |keys| + 2 && |marks| == |keys|
      && 1 <= ri < |chain| && chain[ri - 1] == left && chain[ri] == right
      && (ri > 1 ==> keys[ri - 2] < x && marks[ri - 2] == Alive)
      && (ri - 1 < |keys| ==> x < keys[ri - 1])
    }

    /** A search that did not find x located its insertion point, if nothing moved since. */
    lemma LocatedInsertionPoint(x: int, left: Node, right: Node, ri: int,
                                keys0: seq<int>, elements0: seq<int>, dead0: int)
      requires Valid() && left.next in Repr && right.next in Repr
      requires Located(x, left, right, false, ri, keys0, elements0, dead0) && StopKey(right, ri, keys0)
      ensures left.next.markedReference == Link(right, Alive) ==> InsertionPoint(x, left, right, ri)
      ensures left.next.markedReference == Link(right, Alive) && right != tail ==> right.element in Elements()
    {
      if left.next.markedReference == Link(right, Alive) {
        assert chain[0] == head && chain[|chain| - 1] == tail;
        if ri > 1 {
          assert left != head;
        }
        if ri - 1 < |keys| {
          assert right != tail;
        }
        if right != tail {
          assert keys[ri - 1] == right.element;
          AliveKeyAt(keys, marks, ri - 1);
        }
      }
    }

    /**
     * The compare-and-set of `Add` that swings `left`'s link from
     * (right, Alive) to (inserting, Alive), followed when it succeeds by the
     * counter's increment. `inserting` holds x and already links to `right`.
     */
    method LinkIn(x: int, left: Node, right: Node, inserting: Node, ghost ri: int) returns (linked: bool)
      requires Valid() && left.next in Repr
      requires inserting.element == x && inserting.next !in Repr
      requires inserting.next.markedReference == Link(right, Alive)
      requires left.next.markedReference == Link(right, Alive) ==> InsertionPoint(x, left, right, ri)
      requires SweptBelow(keys, marks, x)
      modifies left.next, this`chain, this`keys, this`marks, this`Repr, this`count
      ensures Valid()
      ensures linked == (old(left.next.markedReference) == Link(right, Alive))
      ensures !linked ==> left.next.markedReference == old(left.next.markedReference)
      ensures !linked ==> && Repr == old(Repr) && count == old(count)
                          && chain == old(chain) && keys == old(keys) && marks == old(marks)
      ensures linked ==> Repr == old(Repr) + {inserting.next} && count == old(count) + 1
      ensures linked ==> x !in old(keys)
      ensures linked ==> forall y :: y in keys <==> y in old(keys) || y == x
      ensures linked ==> forall y :: y in Elements() <==> y in old(Elements()) || y == x
      ensures SweptBelow(keys, marks, x)
      ensures DeadCount(marks) == old(DeadCount(marks))
    {
      ghost var c0, k0, m0, R0, n0 := chain, keys, marks, Repr, count;
      linked := left.next.CompareAndSet(Link(right, Alive), Link(inserting, Alive));
      if linked {
        chain := c0[..ri] + [inserting] + c0[ri..];
        keys := k0[..ri - 1] + [x] + k0[ri - 1..];
        marks := m0[..ri - 1] + [Alive] + m0[ri - 1..];
        Repr := Repr + {inserting.next};
        count := count + 1;
        LinksInsert(ri);
        InsertKeepsValid(c0, k0, m0, R0, n0, ri, inserting);
      }
    }

    /**
     * One round of `Add`'s loop: searches for x and, unless a node holding x
     * is found, points `inserting` at the node after the insertion point and
     * tries to link it in. `done` says the round decided `added`; a round that
     * did not has unlinked at least one Dead node.
     */
    method AddRound(x: int, inserting: Node) returns (done: bool, added: bool)
      requires Valid() && inserting.element == x && inserting.next !in Repr
      modifies Repr, inserting.next
      ensures Valid() && DeadCount(marks) <= old(DeadCount(marks))
      ensures !done || !added ==> Repr == old(Repr) && count == old(count) && Elements() == old(Elements())
      ensures !done ==> (x in keys <==> x in old(keys)) && DeadCount(marks) < old(DeadCount(marks))
      ensures done ==> added == (x !in old(keys))
      ensures done && added ==> Repr == old(Repr) + {inserting.next} && count == old(count) + 1
      ensures done && added ==> forall y :: y in Elements() <==> y in old(Elements()) || y == x
      ensures done && !added ==> (x in keys <==> x in old(Elements()))
      ensures done ==> SweptBelow(keys, marks, x)
      ensures forall y :: y in keys <==> (y in old(keys) && !UnlinkedBySearch(old(keys), old(Elements()), x, y))
                                         || (done && added && y == x)
      ensures x in old(keys) ==> done
      ensures done && added ==> forall y :: !DeadRun(old(keys), old(Elements()), x, y)
    {
      var left, right, found;
      ghost var ri;
      left, right, found, ri := Search(x);
      if found {
        return true, false;
      }
      done := TryLink(x, left, right, inserting, ri, old(keys), old(Elements()), old(DeadCount(marks)));
      added := done;
      if done {
        NoDeadRun(old(keys), old(Elements()), x, right != tail, right.element);
      }
    }

    /**
     * The rest of an `Add` round once its search has not found x: points
     * `inserting` at `right`, reads `left`'s link and, when `left` is Alive,
     * tries to link `inserting` in after it. It links iff `left` is still the
     * Alive node linked just before `right`; otherwise the search unlinked
     * some Dead node. Linking requires `right` to be Alive or `tail`.
     */
    method TryLink(x: int, left: Node, right: Node, inserting: Node, ghost ri: int,
                   ghost keys0: seq<int>, ghost elements0: seq<int>, ghost dead0: int) returns (linked: bool)
      requires Valid() && left.next in Repr && right.next in Repr
      requires inserting.element == x && inserting.next !in Repr
      requires Located(x, left, right, false, ri, keys0, elements0, dead0) && StopKey(right, ri, keys0)
      requires SweptBelow(keys, marks, x)
      modifies left.next, inserting.next, this`chain, this`keys, this`marks, this`Repr, this`count
      ensures Valid() && SweptBelow(keys, marks, x)
      ensures DeadCount(marks) == old(DeadCount(marks))
      ensures !linked ==> && Repr == old(Repr) && count == old(count)
                          && chain == old(chain) && keys == old(keys) && marks == old(marks)
                          && DeadCount(marks) < dead0
      ensures linked ==> Repr == old(Repr) + {inserting.next} && count == old(count) + 1
      ensures linked ==> x !in old(keys)
      ensures linked ==> forall y :: y in keys <==> y in old(keys) || y == x
      ensures linked ==> forall y :: y in Elements() <==> y in old(Elements()) || y == x
      ensures linked && right != tail ==> right.element in old(Elements())
    {
      LocatedInsertionPoint(x, left, right, ri, keys0, elements0, dead0);
      inserting.next.Set(right, Alive);
      var _, leftStatus := left.next.Get();
      linked := false;
      if leftStatus == Alive {
        linked := LinkIn(x, left, right, inserting, ri);
      }
    }

    /**
     * Adds x unless the search finds a node holding x. A node is found even
     * when it is Dead and was only just unlinked by that search, so `Add`
     * fails iff x was a linked key, Alive or Dead, before the call.
     */
    method Add(x: int) returns (added: bool)
      requires Valid()
      modifies Repr
      ensures Valid() && fresh(Repr - old(Repr))
      ensures DeadCount(marks) <= old(DeadCount(marks))
      ensures added == (x !in old(keys))
      ensures added ==> count == old(count) + 1
      ensures added ==> forall y :: y in Elements() <==> y in old(Elements()) || y == x
      ensures !added ==> count == old(count) && Elements() == old(Elements())
      ensures !added ==> (x in keys <==> x in old(Elements()))
      ensures SweptBelow(keys, marks, x)
      ensures forall y :: y in keys <==> (y in old(keys) && !UnlinkedByAdd(old(keys), old(Elements()), x, y))
                                         || (added && y == x)
    {
      var insertingLink := new AtomicMarkableReference<Node?, Status>(null, Alive);
      var inserting := new Node(x, insertingLink);
      while true
        invariant Valid() && Repr == old(Repr) && count == old(count)
        invariant Elements() == old(Elements())
        invariant (x in keys <==> x in old(keys)) && DeadCount(marks) <= old(DeadCount(marks))
        invariant Within(keys, old(keys))
        invariant forall y :: y in old(keys) && y !in keys ==> UnlinkedByAdd(old(keys), old(Elements()), x, y)
        invariant fresh(inserting) && fresh(inserting.next) && inserting.element == x
        decreases DeadCount(marks)
      {
        ghost var k := keys;
        var done;
        done, added := AddRound(x, inserting);
        AddRoundStep(old(keys), old(Elements()), x, k, keys, done, added);
        if done {
          return;
        }
      }
    }

    /**
     * With the state unchanged elsewhere, marking the Alive node at ri Dead
     * leaves the links matching the chain with that mark flipped.
     */
    twostate lemma LinksMark(ri: int)
      requires old(Links(chain, keys, marks)) && DistinctLinks(chain)
      requires chain == old(chain) && keys == old(keys)
      requires 1 <= ri < |chain| - 1 && marks == old(marks)[ri - 1 := Dead]
      requires chain[ri].next.markedReference == Link(chain[ri + 1], Dead)
      requires forall n :: n in chain && n.next != chain[ri].next ==>
                 n.next.markedReference == old(n.next.markedReference)
      ensures Links(chain, keys, marks)
    {
      forall j | 0 <= j < |keys| && j != ri - 1
        ensures chain[j + 1].next.markedReference == Link(chain[j + 2], marks[j])
      {
        assert chain[j + 1] in chain && chain[j + 1].next != chain[ri].next;
      }
      assert chain[0] in chain && chain[|chain| - 1] in chain;
    }

    /**
     * The compare-and-set of `Delete` that flips the mark on `right`'s own
     * link from Alive to Dead, keeping its successor, followed when it
     * succeeds by the counter's decrement. With one thread it always succeeds:
     * the caller has just read that pair.
     */
    method MarkDead(right: Node, rightNext: Node?, ghost ri: int) returns (marked: bool)
      requires Valid() && 1 <= ri < |chain| - 1 && chain[ri] == right
      requires right.next.markedReference == Link(rightNext, Alive)
      modifies right.next, this`marks, this`count
      ensures Valid() && marked
      ensures old(marks)[ri - 1] == Alive && marks == old(marks)[ri - 1 := Dead]
      ensures count == old(count) - 1
      ensures right.element in old(Elements())
      ensures forall y :: y in Elements() <==> y in old(Elements()) && y != right.element
      ensures DeadCount(marks) == old(DeadCount(marks)) + 1
      ensures old(SweptBelow(keys, marks, right.element)) ==> SweptBelow(keys, marks, right.element)
    {
      ghost var m0, n0 := marks, count;
      assert chain[ri].next.markedReference == Link(chain[ri + 1], m0[ri - 1]);
      marked := right.next.CompareAndSet(Link(rightNext, Alive), Link(rightNext, Dead));
      if marked {
        marks := m0[ri - 1 := Dead];
        count := count - 1;
        LinksMark(ri);
        MarkKeepsValid(m0, n0, ri);
      }
    }

    /** Marking the Alive node `chain[ri]` Dead keeps the set valid and removes exactly its key. */
    lemma MarkKeepsValid(m0: seq<Status>, n0: int, ri: int)
      requires this in Repr && Shaped(chain, keys, m0, Repr, n0)
      requires 1 <= ri < |chain| - 1 && m0[ri - 1] == Alive
      requires marks == m0[ri - 1 := Dead] && count == n0 - 1
      requires Links(chain, keys, marks)
      ensures Valid()
      ensures keys[ri - 1] in AliveKeys(keys, m0)
      ensures forall y :: y in Elements() <==> y in AliveKeys(keys, m0) && y != keys[ri - 1]
      ensures DeadCount(marks) == DeadCount(m0) + 1
      ensures SweptBelow(keys, m0, keys[ri - 1]) ==> SweptBelow(keys, marks, keys[ri - 1])
    {
      Kill(keys, m0, ri - 1);
    }

    /** A search that found x on an Alive node found it linked, between the sentinels. */
    lemma FoundLinked(x: int, left: Node, right: Node, ri: int, keys0: seq<int>, elements0: seq<int>, dead0: int)
      requires Valid() && left.next in Repr && right.next in Repr
      requires Located(x, left, right, true, ri, keys0, elements0, dead0)
      requires right.next.markedReference.mark == Alive
      ensures 1 <= ri < |chain| - 1 && chain[ri] == right
    {
      assert chain[|chain| - 1] == tail;
    }

    /**
     * One round of `Delete`'s loop: searches for x and, when it is found on an
     * Alive node, marks that node Dead. `done` says the round decided
     * `deleted`; a round that did not found x on a Dead node, which its
     * search has unlinked.
     */
    method DeleteRound(x: int) returns (done: bool, deleted: bool)
      requires Valid()
      modifies Repr
      ensures Valid() && Repr == old(Repr)
      ensures forall y :: y in keys <==> y in old(keys) && !UnlinkedBySearch(old(keys), old(Elements()), x, y)
      ensures SweptBelow(keys, marks, x)
      ensures done <==> !(x in old(keys) && x !in old(Elements()))
      ensures deleted <==> x in old(Elements())
      ensures deleted ==> count == old(count) - 1 && x in keys
      ensures forall y :: y in Elements() <==> y in old(Elements()) && y != x
      ensures !deleted ==> count == old(count) && Elements() == old(Elements())
      ensures !done ==> DeadCount(marks) < old(DeadCount(marks))
    {
      var left, right, found;
      ghost var ri;
      left, right, found, ri := Search(x);
      if !found {
        return true, false;
      }
      var rightNext, rightStatus := right.next.Get();
      if rightStatus == Dead {
        return false, false;
      }
      FoundLinked(x, left, right, ri, old(keys), old(Elements()), old(DeadCount(marks)));
      deleted := MarkDead(right, rightNext, ri);
      done := true;
    }

    /**
     * Deletes x by marking its node Dead, leaving the node linked until a
     * later search unlinks it. Fails iff x is not an element. A round that
     * finds x on a Dead node has unlinked it, so the next round does not find
     * x and fails.
     */
    method Delete(x: int) returns (deleted: bool)
      requires Valid()
      modifies Repr
      ensures Valid() && Repr == old(Repr)
      ensures deleted == (x in old(Elements()))
      ensures deleted ==> count == old(count) - 1 && x in keys
      ensures !deleted ==> count == old(count) && Elements() == old(Elements())
      ensures forall y :: y in Elements() <==> y in old(Elements()) && y != x
      ensures SweptBelow(keys, marks, x)
      ensures forall y :: y in keys <==> y in old(keys) && !UnlinkedByDelete(old(keys), old(Elements()), x, y)
    {
      ghost var retried := false;
      while true
        invariant Valid() && Repr == old(Repr) && count == old(count)
        invariant Elements() == old(Elements())
        invariant !retried ==> keys == old(keys)
        invariant retried ==> && x in old(keys) && x !in old(Elements())
                              && forall y :: y in keys <==> y in old(keys) && !UnlinkedBySearch(old(keys), old(Elements()), x, y)
        decreases DeadCount(marks)
      {
        ghost var k := keys;
        var done;
        done, deleted := DeleteRound(x);
        if retried {
          SearchPastDead(old(keys), old(Elements()), k, keys, x);
        }
        if done {
          return;
        }
        retried := true;
      }
    }

    /** Whether x is an element: found by the search on a node that is Alive. */
    method Contains(x: int) returns (r: bool)
      requires Valid()
      modifies Repr
      ensures Valid() && Repr == old(Repr) && count == old(count)
      ensures Elements() == old(Elements())
      ensures r == (x in old(Elements()))
      ensures SweptBelow(keys, marks, x)
      ensures forall y :: y in keys <==> y in old(keys) && !UnlinkedBySearch(old(keys), old(Elements()), x, y)
    {
      var left, right, found;
      ghost var ri;
      left, right, found, ri := Search(x);
      var _, rightStatus := right.next.Get();
      r := found && rightStatus == Alive;
    }

    /** Walks the linked nodes from `head` to `tail`, yielding each Alive one's element. */
    method Enumerate() returns (elements: seq<int>)
      requires Valid()
      ensures elements == Elements()
    {
      elements := [];
      var current, _ := head.next.Get();
      ghost var i := 1;
      while current != tail
        invariant 1 <= i < |chain| && current == chain[i]
        invariant elements == AliveKeys(keys[..i - 1], marks[..i - 1])
        decreases |chain| - i
      {
        assert i < |chain| - 1;
        var successor, currentStatus := current.next.Get();
        if currentStatus != Dead {
          elements := elements + [current.element];
        }
        AliveKeysAppend(keys[..i - 1], marks[..i - 1], [keys[i - 1]], [marks[i - 1]]);
        assert keys[..i] == keys[..i - 1] + [keys[i - 1]] && marks[..i] == marks[..i - 1] + [marks[i - 1]];
        current := successor;
        i := i + 1;
      }
      assert keys[..|keys|] == keys && marks[..|marks|] == marks;
    }

    /** The elements ascend strictly, so they are the set's sorted enumeration. */
    lemma ElementsAscending()
      requires Valid()
      ensures StrictlyAscending(Elements())
    {
      AliveKeysAscending(keys, marks);
    }

    /** With no Dead node linked, the linked keys are exactly the elements. */
    lemma NoDeadKeys()
      requires Valid() && DeadCount(marks) == 0
      ensures keys == Elements()
    {
      AliveKeysNoDead(keys, marks);
    }
  }

  /** The ascending run 0, 1, ..., n-1 is strictly ascending and holds exactly 0 <= y < n. */
  lemma Iota(r: seq<int>, n: nat)
    requires r == seq(n, i => i)
    ensures StrictlyAscending(r)
    ensures forall y :: y in r <==> 0 <= y < n
  {
    forall y | 0 <= y < n
      ensures y in r
    {
      assert r[y] == y;
    }
  }

  /**
   * Adds the distinct values of `order` to a new set, one at a time: every
   * add succeeds, no Dead node is ever linked, and the elements are exactly
   * the values added.
   */
  method AddAll(order: seq<int>) returns (sorted: HarrisSortedSet, allAdded: bool)
    requires forall j, k :: 0 <= j < k < |order| ==> order[j] != order[k]
    ensures sorted.Valid() && fresh(sorted.Repr)
    ensures allAdded && forall y :: y in sorted.Elements() <==> y in order
  {
    sorted := new HarrisSortedSet();
    allAdded := true;
    var i := 0;
    while i < |order|
      invariant 0 <= i <= |order|
      invariant sorted.Valid() && fresh(sorted.Repr) && DeadCount(sorted.marks) == 0
      invariant forall y :: y in sorted.Elements() <==> y in order[..i]
      invariant allAdded
    {
      assert order[..i + 1] == order[..i] + [order[i]];
      sorted.NoDeadKeys();
      var added := sorted.Add(order[i]);
      allAdded := allAdded && added;
      i := i + 1;
    }
    assert order[..i] == order;
  }

  /** Adds 0, 1, ..., n-1 to a new set: every add succeeds and the elements are 0, ..., n-1 in order. */
  method AddRun(n: nat) returns (sorted: HarrisSortedSet, allAdded: bool)
    ensures sorted.Valid() && fresh(sorted.Repr)
    ensures allAdded && sorted.Elements() == seq(n, j => j)
  {
    sorted, allAdded := AddAll(seq(n, j => j));
    sorted.ElementsAscending();
    Iota(seq(n, j => j), n);
    AscendingUnique(sorted.Elements(), seq(n, j => j));
  }

  /**
   * Adds 0, 1, ..., n-1 to a new set, reads the counter, enumerates, checks
   * every element is contained, deletes them all, checks none is contained,
   * and reads the counter again: every add and delete succeeds, the counter
   * reads n and then 0, and the enumeration is 0, ..., n-1 in order.
   */
  method IncreaseThenDrain(n: nat) returns (allAdded: bool, countAfterAdd: int, enumerated: seq<int>,
                                            allFound: bool, allDeleted: bool, noneFound: bool, countAfterDelete: int)
    ensures allAdded && countAfterAdd == n && enumerated == seq(n, i => i)
    ensures allFound && allDeleted && noneFound && countAfterDelete == 0
  {
    var sorted;
    sorted, allAdded := AddRun(n);
    countAfterAdd := sorted.Count();
    enumerated := sorted.Enumerate();
    Iota(sorted.Elements(), n);
    allFound := FindEach(sorted, n, true);
    allDeleted := DeleteRun(sorted, n);
    noneFound := FindEach(sorted, n, false);
    countAfterDelete := sorted.Count();
  }

  /** Asks `Contains` for each of 0, ..., n-1, all of which are (or all of which are not) elements. */
  method FindEach(sorted: HarrisSortedSet, n: nat, present: bool) returns (all: bool)
    requires sorted.Valid()
    requires forall y :: 0 <= y < n ==> (y in sorted.Elements() <==> present)
    modifies sorted.Repr
    ensures sorted.Valid() && sorted.Repr == old(sorted.Repr) && sorted.count == old(sorted.count)
    ensures sorted.Elements() == old(sorted.Elements())
    ensures all
  {
    all := true;
    var i := 0;
    while i < n
      invariant 0 <= i <= n
      invariant sorted.Valid() && sorted.Repr == old(sorted.Repr) && sorted.count == old(sorted.count)
      invariant sorted.Elements() == old(sorted.Elements())
      invariant all
    {
      var found := sorted.Contains(i);
      all := all && found == present;
      i := i + 1;
    }
  }

  /** Deletes 0, ..., n-1 from a set holding exactly those: every delete succeeds and nothing is left. */
  method DeleteRun(sorted: HarrisSortedSet, n: nat) returns (allDeleted: bool)
    requires sorted.Valid()
    requires forall y :: y in sorted.Elements() <==> 0 <= y < n
    requires sorted.count == n
    modifies sorted.Repr
    ensures sorted.Valid() && sorted.Repr == old(sorted.Repr)
    ensures allDeleted && sorted.count == 0 && forall y :: y !in sorted.Elements()
  {
    allDeleted := true;
    var i := 0;
    while i < n
      invariant 0 <= i <= n
      invariant sorted.Valid() && sorted.Repr == old(sorted.Repr)
      invariant forall y :: y in sorted.Elements() <==> i <= y < n
      invariant allDeleted && sorted.count == n - i
    {
      var deleted := sorted.Delete(i);
      allDeleted := allDeleted && deleted;
      i := i + 1;
    }
  }

  /**
   * Add, Delete, Add, Add of one x on a new set: the first add and the delete
   * succeed; the second add fails, because the Dead node still holding x is
   * found by its search (which unlinks it); the third add succeeds.
   */
  method DeleteThenAddAgain(x: int) returns (first: bool, deleted: bool, second: bool, third: bool)
    ensures first && deleted && !second && third
  {
    var sorted := new HarrisSortedSet();
    first := sorted.Add(x);
    deleted := sorted.Delete(x);
    second := sorted.Add(x);
    third := sorted.Add(x);
  }

  /**
   * Adds x, deletes it, looks up a larger y, then adds x again. The lookup's
   * search unlinks the Dead node holding x on its way to y, so the last add
   * succeeds.
   */
  method DeleteThenSearchPast(x: int, y: int) returns (added: bool, deleted: bool, found: bool, addedAgain: bool)
    requires x < y
    ensures added && deleted && !found && addedAgain
  {
    var sorted := new HarrisSortedSet();
    added := sorted.Add(x);
    deleted := sorted.Delete(x);
    found := sorted.Contains(y);
    addedAgain := sorted.Add(x);
  }

  /**
   * Two Dead keys x < y, the second deleted first so that no search passes
   * it: a search for x - 1 unlinks only x, the least key not below x - 1, so
   * y stays linked and adding y fails; that attempt unlinks y, and the next
   * one succeeds.
   */
  method DeadPairThenSearch(x: int, y: int) returns (found: bool, addedAgain: bool, addedLast: bool)
    requires x < y
    ensures !found && !addedAgain && addedLast
  {
    var sorted := DeadPair(x, y);
    assert LeastFrom(sorted.keys, x - 1, x) && !LeastFrom(sorted.keys, x - 1, y);
    found := sorted.Contains(x - 1);
    assert forall z :: z in sorted.keys <==> z == y;
    addedAgain := sorted.Add(y);
    assert forall z :: z !in sorted.keys;
    addedLast := sorted.Add(y);
  }

  /** A new set holding x < y, both deleted, y first: two linked Dead keys. */
  method DeadPair(x: int, y: int) returns (sorted: HarrisSortedSet)
    requires x < y
    ensures sorted.Valid() && fresh(sorted.Repr)
    ensures forall z :: z in sorted.keys <==> z == x || z == y
    ensures forall z :: z !in sorted.Elements()
  {
    sorted := new HarrisSortedSet();
    var _ := sorted.Add(x);
    assert fresh(sorted.Repr);
    var _ := sorted.Add(y);
    assert fresh(sorted.Repr);
    assert forall z :: z in sorted.keys <==> z == x || z == y;
    assert forall z :: z in sorted.Elements() <==> z == x || z == y;
    var _ := sorted.Delete(y);
    assert forall z :: z in sorted.keys <==> z == x || z == y;
    var _ := sorted.Delete(x);
    assert !LeastFrom(sorted.keys, x, y);
  }

  /**
   * Adding x twice to a new set: the second add is rejected as a duplicate
   * and leaves the counter at one.
   */
  method AddTwice(x: int) returns (first: bool, second: bool, countAfter: int)
    ensures first && !second && countAfter == 1
  {
    var sorted := new HarrisSortedSet();
    first := sorted.Add(x);
    second := sorted.Add(x);
    countAfter := sorted.Count();
  }

  /**
   * After a successful delete of x, a lookup of x fails and a second delete
   * of x fails, leaving the counter at zero.
   */
  method DeleteThenLookUp(x: int) returns (deleted: bool, found: bool, deletedAgain: bool, countAfter: int)
    ensures deleted && !found && !deletedAgain && countAfter == 0
  {
    var sorted := new HarrisSortedSet();
    var _ := sorted.Add(x);
    deleted := sorted.Delete(x);
    found := sorted.Contains(x);
    deletedAgain := sorted.Delete(x);
    countAfter := sorted.Count();
  }

  /**
   * Adding 5, 3, 1, 4, 2 to a new set: every add succeeds, the enumeration
   * is 1, 2, 3, 4, 5 in ascending order, and the counter reads 5.
   */
  method AddOutOfOrder() returns (allAdded: bool, enumerated: seq<int>, countAfter: int)
    ensures allAdded && enumerated == [1, 2, 3, 4, 5] && countAfter == 5
  {
    var sorted;
    sorted, allAdded := AddAll([5, 3, 1, 4, 2]);
    enumerated := sorted.Enumerate();
    countAfter := sorted.Count();
    sorted.ElementsAscending();
    OneToFive(sorted.Elements());
  }

  /** The only strictly ascending run whose members are 1, ..., 5 is 1, 2, 3, 4, 5. */
  lemma OneToFive(e: seq<int>)
    requires StrictlyAscending(e) && forall y :: y in e <==> y in [5, 3, 1, 4, 2]
    ensures e == [1, 2, 3, 4, 5]
  {
    var r := [1, 2, 3, 4, 5];
    assert forall y :: y in r <==> 1 <= y <= 5 by {
      assert r[0] == 1 && r[1] == 2 && r[2] == 3 && r[3] == 4 && r[4] == 5;
    }
    AscendingUnique(e, r);
  }
}

=== FILE: marked_chain.dfy ===
/**
 * The abstract view of the sorted set's chain: the keys of the linked nodes
 * between the sentinels, in chain order, and the mark each node's own link
 * carries. A node is in the set iff its mark is Alive; Dead nodes may still be
 * linked until a traversal unlinks them.
 *
 * The three ways the chain changes are lemmas here: unlinking a Dead node,
 * linking a new Alive node, and flipping a node's mark from Alive to Dead.
 */
module MarkedChain {

  /** The mark on a sorted-set link, describing the node that owns the link. */
  datatype Status = Alive | Dead

  ghost predicate StrictlyAscending(s: seq<int>)
  {
    forall i, j :: 0 <= i < j < |s| ==> s[i] < s[j]
  }

  /** The keys whose mark is Alive, in chain order: what enumeration yields. */
  function AliveKeys(keys: seq<int>, marks: seq<Status>): seq<int>
    requires |keys| == |marks|
    decreases |keys|
  {
    if keys == [] then []
    else (if marks[0] == Alive then [keys[0]] else []) + AliveKeys(keys[1..], marks[1..])
  }

  /** How many linked nodes are marked Dead: what bounds the retries of the set's loops. */
  function DeadCount(marks: seq<Status>): nat
  {
    if marks == [] then 0
    else (if marks[0] == Dead then 1 else 0) + DeadCount(marks[1..])
  }

  /** Every linked key below x is Alive: what a search for x leaves behind. */
  ghost predicate SweptBelow(keys: seq<int>, marks: seq<Status>, x: int)
    requires |keys| == |marks|
  {
    forall y :: y in keys && y < x ==> y in AliveKeys(keys, marks)
  }

  /** Every key of `keys` is one of `keys0`: the keys have only shrunk. */
  ghost predicate Within(keys: seq<int>, keys0: seq<int>)
  {
    forall y :: y in keys ==> y in keys0
  }

  /** Every key of `keys0` gone from `keys` is below x or is z. */
  ghost predicate DroppedOr(keys0: seq<int>, keys: seq<int>, x: int, z: int)
  {
    forall y :: y in keys0 && y !in keys ==> y < x || y == z
  }

  /** y is the least key that is not below x. */
  ghost predicate LeastFrom(keys: seq<int>, x: int, y: int)
  {
    y in keys && x <= y && forall z :: z in keys && x <= z ==> y <= z
  }

  /**
   * The keys a search for x unlinks, from the linked keys `keys0` with
   * elements `elements0`: each Dead key below x, and the least key not below
   * x when it is Dead.
   */
  ghost predicate UnlinkedBySearch(keys0: seq<int>, elements0: seq<int>, x: int, y: int)
  {
    y in keys0 && y !in elements0 && (y < x || LeastFrom(keys0, x, y))
  }

  /**
   * The keys a deletion of x unlinks: those its search unlinks and, when it
   * finds x on a Dead node and so searches again, those the second search
   * unlinks besides, which is the least key above x when it is Dead.
   */
  ghost predicate UnlinkedByDelete(keys0: seq<int>, elements0: seq<int>, x: int, y: int)
  {
    || UnlinkedBySearch(keys0, elements0, x, y)
    || (x in keys0 && x !in elements0 && UnlinkedBySearch(keys0, elements0, x + 1, y))
  }

  /** y is a key not below x, and every key from x up to y is Dead. */
  ghost predicate DeadRun(keys: seq<int>, elements: seq<int>, x: int, y: int)
  {
    y in keys && x <= y && forall z :: z in keys && x <= z <= y ==> z !in elements
  }

  /**
   * The keys an addition of x unlinks: the Dead keys below x and then, when
   * x is a key, x itself if it is Dead; when it is not, the whole run of Dead
   * keys from x up to the first Alive key, one per retried round.
   */
  ghost predicate UnlinkedByAdd(keys0: seq<int>, elements0: seq<int>, x: int, y: int)
  {
    y in keys0 && y !in elements0 && (y < x || (if x in keys0 then y == x else DeadRun(keys0, elements0, x, y)))
  }

  lemma {:induction false} AliveKeysAppend(k1: seq<int>, m1: seq<Status>, k2: seq<int>, m2: seq<Status>)
    requires |k1| == |m1| && |k2| == |m2|
    ensures AliveKeys(k1 + k2, m1 + m2) == AliveKeys(k1, m1) + AliveKeys(k2, m2)
  {
    if k1 == [] {
      assert k1 + k2 == k2 && m1 + m2 == m2;
    } else {
      var k, m := k1 + k2, m1 + m2;
      assert k != [] && k[0] == k1[0] && m[0] == m1[0];
      assert k[1..] == k1[1..] + k2 && m[1..] == m1[1..] + m2;
      AliveKeysAppend(k1[1..], m1[1..], k2, m2);
      var head := if m1[0] == Alive then [k1[0]] else [];
      assert AliveKeys(k, m) == head + AliveKeys(k[1..], m[1..]);
      assert AliveKeys(k1, m1) == head + AliveKeys(k1[1..], m1[1..]);
    }
  }

  lemma {:induction false} DeadCountAppend(m1: seq<Status>, m2: seq<Status>)
    ensures DeadCount(m1 + m2) == DeadCount(m1) + DeadCount(m2)
  {
    if m1 == [] {
      assert m1 + m2 == m2;
    } else {
      assert (m1 + m2)[1..] == m1[1..] + m2;
      DeadCountAppend(m1[1..], m2);
    }
  }

  /** Every linked node is counted once: as an Alive key or as a Dead node. */
  lemma {:induction false} AliveKeysLength(keys: seq<int>, marks: seq<Status>)
    requires |keys| == |marks|
    ensures |AliveKeys(keys, marks)| + DeadCount(marks) == |keys|
  {
    if keys != [] {
      AliveKeysLength(keys[1..], marks[1..]);
    }
  }

  /** A key is alive iff some linked node holds it with an Alive mark. */
  lemma {:induction false} AliveKeysMember(keys: seq<int>, marks: seq<Status>, x: int)
    requires |keys| == |marks|
    ensures x in AliveKeys(keys, marks) <==>
            exists j :: 0 <= j < |keys| && keys[j] == x && marks[j] == Alive
  {
    if keys != [] {
      AliveKeysMember(keys[1..], marks[1..], x);
      if x in AliveKeys(keys[1..], marks[1..]) {
        var j :| 0 <= j < |keys[1..]| && keys[1..][j] == x && marks[1..][j] == Alive;
        assert keys[j + 1] == x && marks[j + 1] == Alive;
      }
      if exists j :: 0 <= j < |keys| && keys[j] == x && marks[j] == Alive {
        var j :| 0 <= j < |keys| && keys[j] == x && marks[j] == Alive;
        if j > 0 {
          assert keys[1..][j - 1] == x && marks[1..][j - 1] == Alive;
        }
      }
    }
  }

  /** Alive keys are linked keys. */
  lemma AliveKeysSubset(keys: seq<int>, marks: seq<Status>)
    requires |keys| == |marks|
    ensures forall y :: y in AliveKeys(keys, marks) ==> y in keys
  {
    forall y | y in AliveKeys(keys, marks)
      ensures y in keys
    {
      AliveKeysMember(keys, marks, y);
    }
  }

  /** Filtering a strictly ascending run keeps it strictly ascending. */
  lemma {:induction false} AliveKeysAscending(keys: seq<int>, marks: seq<Status>)
    requires |keys| == |marks|
    requires StrictlyAscending(keys)
    ensures StrictlyAscending(AliveKeys(keys, marks))
  {
    if keys != [] {
      var rest := AliveKeys(keys[1..], marks[1..]);
      AliveKeysAscending(keys[1..], marks[1..]);
      AliveKeysSubset(keys[1..], marks[1..]);
      forall i | 0 <= i < |rest|
        ensures keys[0] < rest[i]
      {
        assert rest[i] in rest;
        var j :| 0 <= j < |keys[1..]| && keys[1..][j] == rest[i];
        assert keys[0] < keys[j + 1];
      }
    }
  }

  /** One step of the filter: the first node's key is kept iff its mark is Alive. */
  lemma AliveKeysCons(key: int, mark: Status, keys: seq<int>, marks: seq<Status>)
    requires |keys| == |marks|
    ensures AliveKeys([key] + keys, [mark] + marks)
            == (if mark == Alive then [key] else []) + AliveKeys(keys, marks)
  {
    assert ([key] + keys)[1..] == keys && ([mark] + marks)[1..] == marks;
  }

  lemma DeadCountCons(mark: Status, marks: seq<Status>)
    ensures DeadCount([mark] + marks) == (if mark == Dead then 1 else 0) + DeadCount(marks)
  {
    assert ([mark] + marks)[1..] == marks;
  }

  /** A Dead key between two runs contributes nothing to the alive keys. */
  lemma SkipDead(a: seq<int>, ma: seq<Status>, x: int, b: seq<int>, mb: seq<Status>)
    requires |a| == |ma| && |b| == |mb|
    ensures AliveKeys(a + ([x] + b), ma + ([Dead] + mb)) == AliveKeys(a + b, ma + mb)
  {
    var alive := AliveKeys(b, mb);
    AliveKeysCons(x, Dead, b, mb);
    assert [] + alive == alive;
    calc {
      AliveKeys(a + ([x] + b), ma + ([Dead] + mb));
      { AliveKeysAppend(a, ma, [x] + b, [Dead] + mb); }
      AliveKeys(a, ma) + AliveKeys([x] + b, [Dead] + mb);
      AliveKeys(a, ma) + alive;
      { AliveKeysAppend(a, ma, b, mb); }
      AliveKeys(a + b, ma + mb);
    }
  }

  /** Unlinking a Dead node leaves the alive keys alone. */
  lemma Unlink(keys: seq<int>, marks: seq<Status>, k: int)
    requires |keys| == |marks| && 0 <= k < |keys| && marks[k] == Dead
    ensures AliveKeys(keys[..k] + keys[k + 1..], marks[..k] + marks[k + 1..]) == AliveKeys(keys, marks)
  {
    assert keys == keys[..k] + ([keys[k]] + keys[k + 1..]);
    assert marks == marks[..k] + ([Dead] + marks[k + 1..]);
    SkipDead(keys[..k], marks[..k], keys[k], keys[k + 1..], marks[k + 1..]);
  }

  /** Removing one key keeps a strictly ascending run strictly ascending. */
  lemma RemoveAscending(keys: seq<int>, k: int)
    requires 0 <= k < |keys| && StrictlyAscending(keys)
    ensures StrictlyAscending(keys[..k] + keys[k + 1..])
  {
    var keys' := keys[..k] + keys[k + 1..];
    forall i, j | 0 <= i < j < |keys'|
      ensures keys'[i] < keys'[j]
    {
      var oi := if i < k then i else i + 1;
      var oj := if j < k then j else j + 1;
      assert keys'[i] == keys[oi] && keys'[j] == keys[oj];
    }
  }

  /** Removing one Dead mark lowers the dead count by one. */
  lemma DeadCountRemove(marks: seq<Status>, k: int)
    requires 0 <= k < |marks| && marks[k] == Dead
    ensures DeadCount(marks[..k] + marks[k + 1..]) == DeadCount(marks) - 1
  {
    var ma, mb := marks[..k], marks[k + 1..];
    assert marks == ma + ([Dead] + mb);
    DeadCountAppend(ma, [Dead] + mb);
    DeadCountCons(Dead, mb);
    DeadCountAppend(ma, mb);
  }

  /** A value strictly between two neighbours of a strictly ascending run is not in the run. */
  lemma Gap(keys: seq<int>, k: int, x: int)
    requires 0 <= k <= |keys| && StrictlyAscending(keys)
    requires k > 0 ==> keys[k - 1] < x
    requires k < |keys| ==> x < keys[k]
    ensures x !in keys
  {
    forall j | 0 <= j < |keys|
      ensures keys[j] != x
    {
      if j < k {
        assert keys[j] <= keys[k - 1];
      } else {
        assert keys[k] <= keys[j];
      }
    }
  }

  /** With distinct keys, the key at k is alive iff the node at k is marked Alive. */
  lemma AliveKeyAt(keys: seq<int>, marks: seq<Status>, k: int)
    requires |keys| == |marks| && 0 <= k < |keys| && StrictlyAscending(keys)
    ensures keys[k] in AliveKeys(keys, marks) <==> marks[k] == Alive
  {
    AliveKeysMember(keys, marks, keys[k]);
  }

  /** The first key of a strictly ascending run is its least member. */
  lemma HeadIsLeast(a: seq<int>)
    requires StrictlyAscending(a) && a != []
    ensures forall y :: y in a ==> a[0] <= y
  {
    forall y | y in a
      ensures a[0] <= y
    {
      var j :| 0 <= j < |a| && a[j] == y;
      assert j == 0 || a[0] < a[j];
    }
  }

  /** Past a shared least key, the members of `a` that follow it are members of `b` that follow it. */
  lemma TailSubset(a: seq<int>, b: seq<int>)
    requires StrictlyAscending(a) && a != [] && b != [] && a[0] == b[0]
    requires forall y :: y in a ==> y in b
    ensures forall y :: y in a[1..] ==> y in b[1..]
  {
    forall y | y in a[1..]
      ensures y in b[1..]
    {
      var j :| 0 <= j < |a[1..]| && a[1..][j] == y;
      assert a[j + 1] == y && y in a;
      var k :| 0 <= k < |b| && b[k] == y;
      assert a[0] < a[j + 1] && b[1..][k - 1] == y;
    }
  }

  /**
   * A search that stops on the Dead key at k, just removed from the run, with
   * every key before k below x: x was a key iff it is that one, it was not
   * alive, and it is not a key of the run left behind.
   */
  lemma StopOnRemoved(keys: seq<int>, marks: seq<Status>, k: int, x: int)
    requires |keys| == |marks| && 0 <= k < |keys| && StrictlyAscending(keys)
    requires marks[k] == Dead && (k == 0 || keys[k - 1] < x) && x <= keys[k]
    ensures (x in keys) == (keys[k] == x)
    ensures x !in AliveKeys(keys, marks)
    ensures x !in keys[..k] + keys[k + 1..]
  {
    AliveKeyAt(keys, marks, k);
    RemoveAscending(keys, k);
    Gap(keys[..k] + keys[k + 1..], k, x);
    if keys[k] != x {
      Gap(keys, k, x);
      AliveKeysSubset(keys, marks);
    }
  }

  /** Two strictly ascending runs with the same members are the same run. */
  lemma {:induction false} AscendingUnique(a: seq<int>, b: seq<int>)
    requires StrictlyAscending(a) && StrictlyAscending(b)
    requires forall y :: y in a <==> y in b
    ensures a == b
    decreases |a|
  {
    assert a != [] ==> a[0] in a && a[0] in b;
    assert b != [] ==> b[0] in b && b[0] in a;
    if a != [] && b != [] {
      HeadIsLeast(a);
      HeadIsLeast(b);
      assert a[0] == b[0];
      TailSubset(a, b);
      TailSubset(b, a);
      AscendingUnique(a[1..], b[1..]);
      assert a == [a[0]] + a[1..] && b == [b[0]] + b[1..];
    }
  }

  /** Placing x between keys below it and keys above it keeps a run strictly ascending. */
  lemma InsertAscending(keys: seq<int>, k: int, x: int)
    requires 0 <= k <= |keys| && StrictlyAscending(keys)
    requires k > 0 ==> keys[k - 1] < x
    requires k < |keys| ==> x < keys[k]
    ensures StrictlyAscending(keys[..k] + [x] + keys[k..])
  {
    var keys' := keys[..k] + [x] + keys[k..];
    forall i, j | 0 <= i < j < |keys'|
      ensures keys'[i] < keys'[j]
    {
      if j <= k {
        if j < k {
          assert keys'[i] == keys[i] && keys'[j] == keys[j];
        }
      } else if i <= k {
        assert keys'[j] == keys[j - 1];
        if i < k {
          assert keys'[i] == keys[i];
        }
      } else {
        assert keys'[i] == keys[i - 1] && keys'[j] == keys[j - 1];
      }
    }
  }

  /**
   * Linking a new Alive node with key x between keys below x and keys above x
   * (giving keys' and marks') adds exactly x to the alive keys, keeps the
   * linked keys strictly ascending, and leaves the dead count alone.
   */
  lemma LinkAlive(keys: seq<int>, marks: seq<Status>, k: int, x: int, keys': seq<int>, marks': seq<Status>)
    requires |keys| == |marks| && 0 <= k <= |keys|
    requires StrictlyAscending(keys)
    requires k > 0 ==> keys[k - 1] < x
    requires k < |keys| ==> x < keys[k]
    requires keys' == keys[..k] + [x] + keys[k..] && marks' == marks[..k] + [Alive] + marks[k..]
    ensures StrictlyAscending(keys')
    ensures x !in keys
    ensures |AliveKeys(keys', marks')| == |AliveKeys(keys, marks)| + 1
    ensures forall y :: y in AliveKeys(keys', marks') <==> y in AliveKeys(keys, marks) || y == x
    ensures DeadCount(marks') == DeadCount(marks)
  {
    InsertAscending(keys, k, x);
    Gap(keys, k, x);
    var a, b := keys[..k], keys[k..];
    var ma, mb := marks[..k], marks[k..];
    Regroup(keys, k, x);
    Regroup(marks, k, Alive);
    SpliceAlive(a, ma, x, b, mb);
    var alive, alive' := AliveKeys(keys, marks), AliveKeys(keys', marks');
    assert alive' == AliveKeys(a, ma) + ([x] + AliveKeys(b, mb));
    assert alive == AliveKeys(a, ma) + AliveKeys(b, mb);
    assert |alive'| == |alive| + 1;
    assert forall y :: y in alive' <==> y in alive || y == x;
  }

  /** Splitting a run at k, and splicing one value in at k, regrouped around the split. */
  lemma Regroup<T>(s: seq<T>, k: int, x: T)
    requires 0 <= k <= |s|
    ensures s == s[..k] + s[k..]
    ensures s[..k] + [x] + s[k..] == s[..k] + ([x] + s[k..])
  {
  }

  /** The members of a run with x spliced in at k are x and the members of the run. */
  lemma SpliceMembers<T>(s: seq<T>, k: int, x: T)
    requires 0 <= k <= |s|
    ensures forall y :: y in s[..k] + [x] + s[k..] <==> y in s || y == x
  {
    forall y | y in s[..k] + [x] + s[k..]
      ensures y in s || y == x
    {
      if y != x {
        assert y in s[..k] || y in s[k..];
      }
    }
    assert s == s[..k] + s[k..];
  }

  /** An Alive key spliced between two runs joins the alive keys at that place and adds no Dead node. */
  lemma SpliceAlive(a: seq<int>, ma: seq<Status>, x: int, b: seq<int>, mb: seq<Status>)
    requires |a| == |ma| && |b| == |mb|
    ensures AliveKeys(a + ([x] + b), ma + ([Alive] + mb)) == AliveKeys(a, ma) + ([x] + AliveKeys(b, mb))
    ensures AliveKeys(a + b, ma + mb) == AliveKeys(a, ma) + AliveKeys(b, mb)
    ensures DeadCount(ma + ([Alive] + mb)) == DeadCount(ma + mb)
  {
    AliveKeysAppend(a, ma, b, mb);
    AliveKeysAppend(a, ma, [x] + b, [Alive] + mb);
    AliveKeysCons(x, Alive, b, mb);
    DeadCountAppend(ma, mb);
    DeadCountAppend(ma, [Alive] + mb);
    DeadCountCons(Alive, mb);
  }

  /**
   * Flipping the mark of the node at k from Alive to Dead removes exactly its
   * key from the alive keys (keys are distinct) and adds one Dead node.
   */
  lemma Kill(keys: seq<int>, marks: seq<Status>, k: int)
    requires |keys| == |marks| && 0 <= k < |keys| && marks[k] == Alive
    requires StrictlyAscending(keys)
    ensures keys[k] in AliveKeys(keys, marks)
    ensures |AliveKeys(keys, marks[k := Dead])| == |AliveKeys(keys, marks)| - 1
    ensures forall y :: y in AliveKeys(keys, marks[k := Dead]) <==> y in AliveKeys(keys, marks) && y != keys[k]
    ensures DeadCount(marks[k := Dead]) == DeadCount(marks) + 1
  {
    var key := keys[k];
    var a, b := keys[..k], keys[k + 1..];
    var ma, mb := marks[..k], marks[k + 1..];
    assert keys == a + ([key] + b);
    assert marks == ma + ([Alive] + mb);
    assert marks[k := Dead] == ma + ([Dead] + mb);
    AliveKeysAppend(a, ma, [key] + b, [Alive] + mb);
    AliveKeysAppend(a, ma, [key] + b, [Dead] + mb);
    AliveKeysCons(key, Alive, b, mb);
    AliveKeysCons(key, Dead, b, mb);
    DeadCountAppend(ma, [Alive] + mb);
    DeadCountAppend(ma, [Dead] + mb);
    DeadCountCons(Alive, mb);
    DeadCountCons(Dead, mb);
    AliveKeysSubset(a, ma);
    AliveKeysSubset(b, mb);
    assert key !in a && key !in b;
  }

  /** With no Dead mark, every key is Alive. */
  lemma {:induction false} AliveKeysNoDead(keys: seq<int>, marks: seq<Status>)
    requires |keys| == |marks| && DeadCount(marks) == 0
    ensures AliveKeys(keys, marks) == keys
  {
    if keys != [] {
      AliveKeysCons(keys[0], marks[0], keys[1..], marks[1..]);
      DeadCountCons(marks[0], marks[1..]);
      AliveKeysNoDead(keys[1..], marks[1..]);
      assert [keys[0]] + keys[1..] == keys && [marks[0]] + marks[1..] == marks;
    }
  }

  /**
   * Unlinking the key at j from keys that have only shrunk from `keys0`,
   * losing only keys below x, leaves keys that have only shrunk, losing only
   * keys below x and that one.
   */
  lemma RemoveWithin(k0: seq<int>, k: seq<int>, keys0: seq<int>, x: int, j: int)
    requires 0 <= j < |k0| && k == k0[..j] + k0[j + 1..]
    requires Within(k0, keys0) && DroppedOr(keys0, k0, x, x - 1)
    ensures Within(k, keys0) && DroppedOr(keys0, k, x, k0[j])
  {
    assert k0 == k0[..j] + [k0[j]] + k0[j + 1..];
  }

  /** A dropped key that is below x needs no mention of its own. */
  lemma DroppedBelow(keys0: seq<int>, k: seq<int>, x: int, z: int)
    requires DroppedOr(keys0, k, x, z) && z < x
    ensures DroppedOr(keys0, k, x, x - 1)
  {
  }

  /**
   * Unlinking the key at k from strictly ascending keys removes that key
   * altogether, and the key that moves up into its place is above it.
   */
  lemma RemoveGone(keys: seq<int>, k: int)
    requires 0 <= k < |keys| && StrictlyAscending(keys)
    ensures keys[k] !in keys[..k] + keys[k + 1..]
    ensures k + 1 < |keys| ==> keys[k] < (keys[..k] + keys[k + 1..])[k]
  {
    var r := keys[..k] + keys[k + 1..];
    forall j | 0 <= j < |r|
      ensures r[j] != keys[k]
    {
      assert r[j] == if j < k then keys[j] else keys[j + 1];
    }
  }

  /**
   * The keys a search for x leaves linked. The search has only dropped keys
   * of `keys0` below x or, when it `stopped` on a node with key s, that key;
   * it stopped at index r of the keys, before which every key is below x;
   * every key below x is Alive; s is one of `keys0`, not below x, not above
   * the key now at r, and Alive if still linked; a search that did not stop
   * on a node ran off the end of the keys. Then the linked keys are exactly
   * those of `keys0` that the search did not unlink.
   */
  lemma SearchedFrom(keys0: seq<int>, keys: seq<int>, marks: seq<Status>, x: int,
                     r: int, stopped: bool, s: int)
    requires |keys| == |marks| && StrictlyAscending(keys) && Within(keys, keys0)
    requires SweptBelow(keys, marks, x)
    requires 0 <= r <= |keys| && forall j :: 0 <= j < r ==> keys[j] < x
    requires !stopped ==> r == |keys| && DroppedOr(keys0, keys, x, x - 1)
    requires stopped ==> && s in keys0 && x <= s && DroppedOr(keys0, keys, x, s)
                         && (r < |keys| ==> s <= keys[r])
                         && (s in keys ==> s in AliveKeys(keys, marks))
    ensures forall y :: y in keys <==> y in keys0 && !UnlinkedBySearch(keys0, AliveKeys(keys, marks), x, y)
    ensures stopped ==> LeastFrom(keys0, x, s)
    ensures !stopped ==> forall y :: y in keys0 ==> y < x
  {
    var alive := AliveKeys(keys, marks);
    AliveKeysSubset(keys, marks);
    if stopped {
      forall z | z in keys0 && x <= z
        ensures s <= z
      {
        if z in keys {
          var j :| 0 <= j < |keys| && keys[j] == z;
          assert r <= j;
          assert r == j || keys[r] < keys[j];
        }
      }
    }
    forall y | y in keys
      ensures !UnlinkedBySearch(keys0, alive, x, y)
    {
      if y !in alive && x <= y {
        var j :| 0 <= j < |keys| && keys[j] == y;
        assert r <= j;
        assert r == j || keys[r] < keys[j];
        assert s < y && s in keys0 && x <= s;
      }
    }
  }

  /**
   * A search for x that stopped on the node with the least key not below x
   * (`stopped`, key s), an Alive one, or found no key not below x, leaves no
   * run of Dead keys from x on.
   */
  lemma NoDeadRun(keys0: seq<int>, elements0: seq<int>, x: int, stopped: bool, s: int)
    requires stopped ==> LeastFrom(keys0, x, s) && s in elements0
    requires !stopped ==> forall y :: y in keys0 ==> y < x
    ensures forall y :: !DeadRun(keys0, elements0, x, y)
  {
  }

  /**
   * A search for x from the keys left by a search for x that unlinked x
   * itself, a Dead key, unlinks besides what a search for x + 1 from the
   * first keys would: the least key above x, when it is Dead.
   */
  lemma SearchPastDead(keys0: seq<int>, elements0: seq<int>, k1: seq<int>, k2: seq<int>, x: int)
    requires x in keys0 && x !in elements0
    requires forall y :: y in k1 <==> y in keys0 && !UnlinkedBySearch(keys0, elements0, x, y)
    requires forall y :: y in k2 <==> y in k1 && !UnlinkedBySearch(k1, elements0, x, y)
    ensures forall y :: y in k2 <==> y in keys0 && !UnlinkedByDelete(keys0, elements0, x, y)
  {
    assert LeastFrom(keys0, x, x);
    forall y | y in k1
      ensures UnlinkedBySearch(k1, elements0, x, y) <==> UnlinkedBySearch(keys0, elements0, x + 1, y)
    {
      forall z | z in keys0 && x + 1 <= z
        ensures z in k1
      {
        assert !LeastFrom(keys0, x, z);
      }
    }
  }

  /**
   * One round of an addition of x, from keys `k` that the earlier rounds
   * have left, only dropping keys an addition unlinks: the round's search
   * and, when it is `done` and `added`, the link of x. A round from keys
   * holding x is done; a round that added x left no run of Dead keys from x
   * on. Then the round too drops only keys an addition unlinks, and once it
   * is done the keys are exactly those left by an addition.
   */
  lemma AddRoundStep(keys0: seq<int>, elements0: seq<int>, x: int, k: seq<int>, k': seq<int>,
                     done: bool, added: bool)
    requires Within(k, keys0) && (x in k <==> x in keys0)
    requires forall y :: y in keys0 && y !in k ==> UnlinkedByAdd(keys0, elements0, x, y)
    requires forall y :: y in k' <==> (y in k && !UnlinkedBySearch(k, elements0, x, y)) || (done && added && y == x)
    requires done ==> added == (x !in k)
    requires x in k ==> done
    requires done && added ==> forall y :: !DeadRun(k, elements0, x, y)
    ensures forall y :: y in k' ==> y in keys0 || (done && added && y == x)
    ensures forall y :: y in keys0 && y !in k' ==> UnlinkedByAdd(keys0, elements0, x, y)
    ensures done ==> forall y :: y in k' <==> (y in keys0 && !UnlinkedByAdd(keys0, elements0, x, y)) || (added && y == x)
  {
    forall y | y in keys0 && y !in k' && y in k && x !in keys0 && x <= y
      ensures DeadRun(keys0, elements0, x, y)
    {
      assert LeastFrom(k, x, y);
    }
    forall y | y in k && DeadRun(keys0, elements0, x, y)
      ensures DeadRun(k, elements0, x, y)
    {
    }
    if done {
      forall y | y in k && y !in elements0 && LeastFrom(k, x, y) && x !in keys0
        ensures DeadRun(k, elements0, x, y)
      {
      }
    }
  }
}

=== FILE: queue.dfy ===
/**
 * The Michael-Scott queue, run by one thread: a singly linked list that starts
 * at a consumed sentinel `head`, whose successors hold the queued elements
 * front to back, and whose last node is `tail`. Links and the two pointers are
 * swung by compare-and-set.
 *
 * With one thread an enqueue always swings `tail` onto the node it linked, so
 * `tail` never lags: the helping branches of `Enqueue` and `TryDequeue` are
 * never taken, and the model proves that.
 */
module MsQueue {

  /** A queue node: an immutable element and a successor link swung by compare-and-set. */
  class Node<T> {
    const element: T
    var next: Node?<T>

    constructor (element: T, next: Node?<T>)
      ensures this.element == element && this.next == next
    {
      this.element := element;
      this.next := next;
    }

    /** Writes `destination` iff `next` is currently `source` (by identity); otherwise changes nothing. */
    method CompareAndSetNext(source: Node?<T>, destination: Node?<T>) returns (ok: bool)
      modifies this
      ensures ok == (old(next) == source)
      ensures next == if ok then destination else old(next)
    {
      var local := next;
      ok := local == source;
      if ok {
        next := destination;
      }
    }
  }

  /** The elements held by a run of nodes, in list order. */
  function ElementsOf<T>(nodes: seq<Node<T>>): seq<T>
  {
    seq(|nodes|, i requires 0 <= i < |nodes| => nodes[i].element)
  }

  class Queue<T(0)> {
    var count: int
    var head: Node<T>
    var tail: Node<T>
    /** The linked nodes from the sentinel `head` to `tail`. */
    ghost var nodes: seq<Node<T>>
    ghost var Repr: set<object>

    /**
     * `nodes` runs from `head` to `tail` along the `next` links, the tail's
     * link is null, and the counter equals the number of nodes after the sentinel.
     */
    ghost predicate Valid()
      reads this, Repr
    {
      && this in Repr
      && |nodes| >= 1
      && nodes[0] == head
      && nodes[|nodes| - 1] == tail
      && (forall i :: 0 <= i < |nodes| ==> nodes[i] in Repr)
      && (forall i :: 0 <= i < |nodes| - 1 ==> nodes[i].next == nodes[i + 1])
      && tail.next == null
      && count == |nodes| - 1
    }

    /** The abstract contents: the elements after the sentinel, front to back. */
    ghost function Contents(): seq<T>
      reads this
      requires |nodes| >= 1
    {
      ElementsOf(nodes[1..])
    }

    /** A new queue: `head` and `tail` on one sentinel with no successor, and a zero counter. */
    constructor ()
      ensures Valid() && fresh(Repr)
      ensures head == tail && tail.next == null
      ensures count == 0 && Contents() == []
    {
      count := 0;
      var sentinel: T := *;
      var t := new Node(sentinel, null);
      tail := t;
      head := t;
      nodes := [t];
      Repr := {this, t};
    }

    /** The advisory counter, which one thread keeps equal to the number of elements. */
    function Count(): (r: int)
      reads this, Repr
      requires Valid()
      ensures r == |Contents()|
    {
      count
    }

    /** Installs `destination` as `tail` iff `tail` is currently `source`. */
    method CompareAndSetTail(source: Node<T>, destination: Node<T>) returns (ok: bool)
      modifies this`tail
      ensures ok == (old(tail) == source)
      ensures tail == if ok then destination else old(tail)
    {
      ok := tail == source;
      if ok {
        tail := destination;
      }
    }

    /** Installs `destination` as `head` iff `head` is currently `source`. */
    method CompareAndSetHead(source: Node<T>, destination: Node<T>) returns (ok: bool)
      modifies this`head
      ensures ok == (old(head) == source)
      ensures head == if ok then destination else old(head)
    {
      ok := head == source;
      if ok {
        head := destination;
      }
    }

    /** Links a fresh node holding `element` after the last node and swings `tail` onto it. */
    method Enqueue(element: T)
      requires Valid()
      modifies Repr
      ensures Valid() && fresh(Repr - old(Repr))
      ensures head == old(head) && old(tail).next == tail
      ensures fresh(tail) && tail.element == element && tail.next == null
      ensures Contents() == old(Contents()) + [element]
      ensures count == old(count) + 1
    {
      var newTail := new Node(element, null);
      var linked := false;
      while !linked
        invariant Valid() && fresh(newTail) && newTail.next == null && newTail.element == element
        invariant !linked ==> nodes == old(nodes) && Repr == old(Repr) && count == old(count)
                              && head == old(head) && tail == old(tail)
        invariant linked ==> nodes == old(nodes) + [newTail] && Repr == old(Repr) + {newTail}
                             && count == old(count) + 1 && head == old(head) && tail == newTail
                             && old(tail).next == newTail
        decreases !linked
      {
        var localTail := tail;
        var localTailNext := localTail.next;
        if localTailNext != null {
          // Only a concurrent enqueuer can leave `tail` behind a linked node.
          assert false;
        }
        linked := localTail.CompareAndSetNext(null, newTail);
        if linked {
          var _ := CompareAndSetTail(localTail, newTail);
          count := count + 1;
          nodes := nodes + [newTail];
          Repr := Repr + {newTail};
        }
      }
      assert nodes[1..] == old(nodes)[1..] + [newTail];
    }

    /** Reads the front element without changing anything; fails when there is none. */
    method TryHead() returns (ok: bool, element: T)
      requires Valid()
      ensures ok == (Contents() != [])
      ensures ok ==> element == Contents()[0]
    {
      var localHead := head;
      var localHeadNext := localHead.next;
      assert |nodes| >= 2 ==> nodes[0].next == nodes[1];
      if localHeadNext == null {
        var none: T := *;
        return false, none;
      }
      ok, element := true, localHeadNext.element;
    }

    /** Reads the element at `tail`: fails iff `head` and `tail` are the same node. */
    method TryTail() returns (ok: bool, element: T)
      requires Valid()
      ensures ok == (head != tail)
      ensures ok == (Contents() != [])
      ensures ok ==> element == Contents()[|Contents()| - 1]
    {
      var localHead := head;
      var localTail := tail;
      assert |nodes| >= 2 ==> nodes[0].next == nodes[1];
      if localHead == localTail {
        var none: T := *;
        return false, none;
      }
      ok, element := true, localTail.element;
    }

    /**
     * On an empty queue reports failure and changes nothing; otherwise swings
     * `head` onto the first element's node, which becomes the new sentinel, and
     * returns that element.
     */
    method TryDequeue() returns (ok: bool, element: T)
      requires Valid()
      modifies this
      ensures Valid() && Repr == old(Repr) && tail == old(tail)
      ensures ok == (old(Contents()) != [])
      ensures !ok ==> head == old(head) && count == old(count) && Contents() == old(Contents())
      ensures ok ==> head == old(head).next
      ensures ok ==> element == old(Contents())[0] && Contents() == old(Contents())[1..]
      ensures ok ==> count == old(count) - 1
    {
      var localHeadNext: Node?<T> := null;
      var exchanged := false;
      while !exchanged
        invariant Valid() && Repr == old(Repr) && tail == old(tail)
        invariant !exchanged ==> nodes == old(nodes) && head == old(head) && count == old(count)
        invariant exchanged ==> |old(nodes)| >= 2 && localHeadNext == old(nodes)[1]
                                && nodes == old(nodes)[1..] && head == localHeadNext
                                && count == old(count) - 1
        decreases !exchanged
      {
        var localHead := head;
        localHeadNext := localHead.next;
        assert |nodes| >= 2 ==> nodes[0].next == nodes[1];
        if localHeadNext == null {
          var none: T := *;
          return false, none;
        }
        var localTail := tail;
        if localHead == localTail {
          // Only a concurrent enqueuer can leave `tail` on the sentinel while a node is linked.
          assert false;
        }
        exchanged := CompareAndSetHead(localHead, localHeadNext);
        if exchanged {
          count := count - 1;
          nodes := nodes[1..];
        }
      }
      ok, element := true, localHeadNext.element;
    }

    /** Walks from the sentinel's successor to the end, front to back. */
    method Enumerate() returns (elements: seq<T>)
      requires Valid()
      ensures elements == Contents()
    {
      elements := [];
      var current := head.next;
      ghost var i := 1;
      while current != null
        invariant 1 <= i <= |nodes|
        invariant i < |nodes| ==> current == nodes[i]
        invariant i == |nodes| ==> current == null
        invariant elements == Contents()[..i - 1]
        decreases |nodes| - i
      {
        elements := elements + [current.element];
        current := current.next;
        i := i + 1;
      }
    }
  }

  /** The ascending run 0, 1, ..., n-1. */
  function Range(n: nat): (r: seq<int>)
    ensures |r| == n
    ensures forall i :: 0 <= i < n ==> r[i] == i
  {
    if n == 0 then [] else Range(n - 1) + [n - 1]
  }

  /**
   * Enqueues 0, 1, ..., n-1 on a new queue, reading the tail after every
   * enqueue, then dequeues until the queue reports empty: every tail read sees
   * the element just enqueued, the counter reaches n, the dequeues come out as
   * 0, ..., n-1, and the counter ends at 0.
   */
  method EnqueueAllThenDrain(n: nat) returns (tailsMatched: bool, countAfterEnqueue: int, dequeued: seq<int>, countAfterDrain: int)
    ensures tailsMatched && countAfterEnqueue == n
    ensures dequeued == Range(n) && countAfterDrain == 0
  {
    var q := new Queue<int>();
    tailsMatched := true;
    var i := 0;
    while i < n
      invariant 0 <= i <= n
      invariant q.Valid() && fresh(q.Repr) && q.Contents() == Range(i)
      invariant tailsMatched
    {
      q.Enqueue(i);
      var ok, last := q.TryTail();
      tailsMatched := tailsMatched && ok && last == i;
      i := i + 1;
    }
    countAfterEnqueue := q.Count();
    dequeued := [];
    var more := true;
    while more
      invariant q.Valid() && fresh(q.Repr)
      invariant dequeued + q.Contents() == Range(n)
      invariant !more ==> q.Contents() == []
      decreases |q.Contents()| + (if more then 1 else 0)
    {
      var front;
      more, front := q.TryDequeue();
      if more {
        dequeued := dequeued + [front];
      }
    }
    countAfterDrain := q.Count();
  }
}

=== FILE: stack.dfy ===
/**
 * Treiber's stack, run by one thread: a singly linked list of immutable nodes
 * whose top is the nullable `head`. Pushing and popping only swing `head` by a
 * compare-exchange; a node's successor is fixed when the node is built.
 */
module TreiberStack {

  /** An immutable stack node: the element and the node below it. */
  class Node<T> {
    const element: T
    const next: Node?<T>

    constructor (element: T, next: Node?<T>)
      ensures this.element == element && this.next == next
    {
      this.element := element;
      this.next := next;
    }
  }

  /** The elements held by a run of nodes, in list order. */
  function ElementsOf<T>(nodes: seq<Node<T>>): seq<T>
  {
    seq(|nodes|, i requires 0 <= i < |nodes| => nodes[i].element)
  }

  class Stack<T(0)> {
    var head: Node?<T>
    var count: int
    /** The nodes reachable from `head`, top first. */
    ghost var nodes: seq<Node<T>>

    /**
     * `head` starts the run `nodes`, each node's successor is the next one in
     * the run, the last has none, and the counter equals the number of nodes.
     */
    ghost predicate Valid()
      reads this
    {
      && (nodes == [] ==> head == null)
      && (nodes != [] ==> head == nodes[0] && nodes[|nodes| - 1].next == null)
      && (forall i :: 0 <= i < |nodes| - 1 ==> nodes[i].next == nodes[i + 1])
      && count == |nodes|
    }

    /** The abstract contents, top to bottom. */
    ghost function Contents(): seq<T>
      reads this
    {
      ElementsOf(nodes)
    }

    /** A new stack has no head and a zero counter. */
    constructor ()
      ensures Valid()
      ensures head == null && count == 0 && Contents() == []
    {
      head := null;
      count := 0;
      nodes := [];
    }

    /** The advisory counter, which one thread keeps equal to the number of elements. */
    function Count(): (r: int)
      reads this
      requires Valid()
      ensures r == |Contents()|
    {
      count
    }

    /**
     * The atomic exchange on `head`: installs `destination` iff `head` is
     * currently `source` (by identity) and reports whether it did.
     */
    method CompareExchangeHead(destination: Node?<T>, source: Node?<T>) returns (ok: bool)
      modifies this`head
      ensures ok == (old(head) == source)
      ensures head == if ok then destination else old(head)
    {
      ok := head == source;
      if ok {
        head := destination;
      }
    }

    /** Builds a node holding `element` on top of the current head and swings `head` to it. */
    method Push(element: T)
      requires Valid()
      modifies this
      ensures Valid()
      ensures head != null && fresh(head) && head.element == element && head.next == old(head)
      ensures Contents() == [element] + old(Contents())
      ensures count == old(count) + 1
    {
      var pushed := false;
      while !pushed
        invariant Valid()
        invariant !pushed ==> nodes == old(nodes) && head == old(head)
        invariant pushed ==> head != null && fresh(head) && head.element == element && head.next == old(head)
        invariant pushed ==> nodes == [head] + old(nodes)
        decreases !pushed
      {
        var currentHead := head;
        var newHead := new Node(element, currentHead);
        pushed := CompareExchangeHead(newHead, currentHead);
        if pushed {
          count := count + 1;
          nodes := [newHead] + nodes;
          assert forall i :: 1 <= i < |nodes| ==> nodes[i] == old(nodes)[i - 1];
        }
      }
    }

    /**
     * On an empty stack reports failure and changes nothing; otherwise swings
     * `head` to the old head's successor and returns the old head's element.
     */
    method TryPop() returns (ok: bool, element: T)
      requires Valid()
      modifies this
      ensures Valid()
      ensures ok == (old(Contents()) != [])
      ensures !ok ==> head == old(head) && count == old(count) && Contents() == old(Contents())
      ensures ok ==> old(head) != null && head == old(head).next
      ensures ok ==> element == old(Contents())[0] && Contents() == old(Contents())[1..]
      ensures ok ==> count == old(count) - 1
    {
      var currentHead: Node?<T> := null;
      var exchanged := false;
      while !exchanged
        invariant Valid()
        invariant !exchanged ==> nodes == old(nodes) && head == old(head) && count == old(count)
        invariant exchanged ==> currentHead != null && old(nodes) != []
                                && currentHead == old(nodes)[0] && nodes == old(nodes)[1..]
                                && head == currentHead.next
        decreases !exchanged
      {
        currentHead := head;
        if currentHead == null {
          var none: T := *;
          return false, none;
        }
        var newHead := currentHead.next;
        exchanged := CompareExchangeHead(newHead, currentHead);
        if exchanged {
          count := count - 1;
          nodes := nodes[1..];
        }
      }
      ok, element := true, currentHead.element;
    }

    /** Reads the top element without changing anything; fails on an empty stack. */
    method TryPeek() returns (ok: bool, element: T)
      requires Valid()
      ensures ok == (Contents() != [])
      ensures ok ==> element == Contents()[0]
    {
      var currentHead := head;
      if currentHead == null {
        var none: T := *;
        return false, none;
      }
      ok, element := true, currentHead.element;
    }

    /** Walks from `head` along the fixed successor links, top to bottom. */
    method Enumerate() returns (elements: seq<T>)
      requires Valid()
      ensures elements == Contents()
    {
      elements := [];
      var current := head;
      ghost var i := 0;
      while current != null
        invariant 0 <= i <= |nodes|
        invariant i < |nodes| ==> current == nodes[i]
        invariant i == |nodes| ==> current == null
        invariant elements == Contents()[..i]
        decreases |nodes| - i
      {
        elements := elements + [current.element];
        current := current.next;
        i := i + 1;
      }
    }
  }

  /** `Push(x)` then `TryPop()` yields x and puts the previous head back. */
  method PushThenPop<T(0)>(s: Stack<T>, x: T) returns (ok: bool, y: T)
    requires s.Valid()
    modifies s
    ensures s.Valid()
    ensures ok && y == x
    ensures s.head == old(s.head) && s.Contents() == old(s.Contents()) && s.count == old(s.count)
  {
    s.Push(x);
    ok, y := s.TryPop();
  }

  /** The descending run n-1, ..., 1, 0. */
  function Countdown(n: nat): (r: seq<int>)
    ensures |r| == n
    ensures forall i :: 0 <= i < n ==> r[i] == n - 1 - i
  {
    if n == 0 then [] else [n - 1] + Countdown(n - 1)
  }

  /**
   * Pushes 0, 1, ..., n-1 onto a new stack, peeking after every push, then
   * pops until the stack reports empty: every peek sees the element just
   * pushed, the counter reaches n, the pops come out as n-1, ..., 0, and the
   * counter ends at 0.
   */
  method PushAllThenDrain(n: nat) returns (peeksMatched: bool, countAfterPush: int, popped: seq<int>, countAfterDrain: int)
    ensures peeksMatched && countAfterPush == n
    ensures popped == Countdown(n) && countAfterDrain == 0
  {
    var s := new Stack<int>();
    peeksMatched := true;
    var i := 0;
    while i < n
      invariant 0 <= i <= n
      invariant s.Valid() && s.Contents() == Countdown(i)
      invariant peeksMatched
    {
      s.Push(i);
      var ok, top := s.TryPeek();
      peeksMatched := peeksMatched && ok && top == i;
      i := i + 1;
    }
    countAfterPush := s.Count();
    popped := [];
    var more := true;
    while more
      invariant s.Valid()
      invariant popped + s.Contents() == Countdown(n)
      invariant !more ==> s.Contents() == []
      decreases |s.Contents()| + (if more then 1 else 0)
    {
      var top;
      more, top := s.TryPop();
      if more {
        popped := popped + [top];
      }
    }
    countAfterDrain := s.Count();
  }
}
